=== FILE: README.md ===
# bevy_pixelmap, modelled in Dafny

bevy_pixelmap is a sparse, unbounded 2D pixel canvas. The canvas is cut into
equally sized square chunks. A chunk is created the first time something
touches it, and each chunk is an RGBA8 image shown by a sprite. The
repository holds three generations of this canvas.

- **`src/lib.rs`** is the current canvas. It has a CPU read path and a queue
  of "stamps", which are positioned textures. Once per frame the queue is
  resolved into a per-chunk overlap table. The render phase turns that table
  into bind groups and compute pipelines, then dispatches them.
- **`src/pixel_map_cpu.rs`** is a CPU canvas. Pixel writes are queued and
  flushed once per update.
- **`src/pixel_map.rs`** is an older canvas. Whole chunks are queued for
  addition, and removals are queued but never carried out.
- **`src/chunk_position.rs`** is an early copy of the chunk addressing.

`src/lib.rs` has no `mod` item (lines 1-34 are its imports and the shader
path). So `src/pixel_map_cpu.rs`, `src/pixel_map.rs` and
`src/chunk_position.rs` are not compiled into the crate, and nothing in
it calls them. Their defects, such as the second Findings row, are latent.

The model keeps the integer and bookkeeping logic of all four files.

- **Data:** chunk positions, slot maps, image handles and byte buffers are
  pure Dafny values. The files are `bevy.dfy`, `chunk_store.dfy`,
  `canvas.dfy`, `cpu_canvas.dfy` and `legacy_canvas.dfy`.
- **Host engine:**
  - The asset store is a map from handles to images. Adding an image hands
    out a fresh handle.
  - A spawned sprite is recorded as the image it shows, its translation and
    its parent. An entity is the index of its sprite.
  - A hash map's iteration order is an explicit `order` parameter, required
    to list each key exactly once (`Rust.Enumerates`).
  - A panic (`unwrap`, `expect`, `assert!`, out-of-range slice) is an
    `Outcome.Panicked` value that names its site.
- **Addressing** (`addressing.dfy`, `chunk_position.dfy`):
  - `src/lib.rs` computes the chunk coordinate with `f64` floor division.
    That is exact for i32 operands, so it is modelled as integer floor
    division, with the Euclidean-remainder offset and the vertically flipped
    row-major pixel number.
  - `src/pixel_map_cpu.rs` has identical copies of these functions, and its
    model uses the same module.
  - The truncating variant of `src/chunk_position.rs` is modelled separately.
- **Overlap table** (`rect.dfy`, `overlap.dfy`):
  - This is `IRect::points` and `prepare_chunks`.
  - `IRect::points` excludes `max`, so the padding is one chunk below
    `start` and none beyond `end`. A stamp inside one chunk reaches 2x2
    chunks.
- **Render bookkeeping** (`render.dfy`):
  - This is `prepare_binds` and `apply_ops`, working on the four maps of
    `RenderData`.
  - Pipeline ids are positions in a pipeline queue. Which pipelines have
    compiled is a parameter (`ready`).
  - `prepare_binds` builds one bind group per (chunk, stamp) pair; nothing
    batches stamps into groups of eight.

## Model

| member | source | states |
|---|---|---|
| Addressing.Outer | src/lib.rs:48-53 | the chunk coordinate is the floor quotient: the position lies in `[c*size, c*size + size)` on each axis |
| Addressing.Inner | src/lib.rs:36-41 | the offset is below the chunk size, and added to the chunk origin gives the position back |
| Addressing.Index | src/lib.rs:43-46 | the pixel number is below `size.x * size.y` (so the u32 subtraction never underflows); `% size.x` recovers the column, `/ size.x` the flipped row `size.y - 1 - inner.y` |
| Addressing.RowMajor | src/lib.rs:45 | a row-major pixel number is in range and gives back its row and column |
| Addressing.OuterCharacterization | src/lib.rs:48-53 | a coordinate is the chunk of `p` if and only if `p` lies in that chunk's rectangle |
| Addressing.PositionRoundTrip | src/lib.rs:36-53 | (chunk, offset) to position and position to (chunk, offset) are inverse, in both directions |
| Addressing.PixelPosition | src/lib.rs:43-46 | inverse of the pixel number: every pixel of a chunk is the index of exactly the position it returns |
| Addressing.IndexInjective | src/lib.rs:36-53 | chunk coordinate and pixel number together identify a world position |
| Addressing.IndexExample | src/lib.rs:43-46 | chunk size 4x4, offset (1, 1) is pixel 9, and so is (-3, -3) in chunk (-1, -1) |
| ChunkStore.PushValid | src/lib.rs:170-171 | registering a new chunk with a fresh image keeps slots injective and dense and handles distinct, gives it slot `len`, and leaves every other chunk's slot and handle as it was |
| ChunkStore.SlotsOnto | src/lib.rs:170-171 | in a valid store the slots in use are exactly `0 .. image_data.len()` |
| ChunkStore.HandleInjective | src/lib.rs:61-62 | distinct chunks have distinct image handles |
| ChunkPosition.TruncDiv | src/chunk_position.rs:11-12 | Rust's `/` rounds toward zero: bounds of the quotient for non-negative and negative dividends |
| ChunkPosition.Outer | src/chunk_position.rs:9-14 | the truncating chunk coordinate, bounded per axis by the sign of the position |
| ChunkPosition.Index | src/chunk_position.rs:16-19 | the unflipped pixel number is below the chunk area and gives back `inner.x` and `inner.y` |
| ChunkPosition.TruncVersusFloor | src/chunk_position.rs:9-14 | truncation equals floor division on non-negative values and exact multiples, and is one more on other negatives |
| ChunkPosition.DecomposeNonNegative | src/chunk_position.rs:3-14 | for non-negative positions `outer * size + inner == position`, and `outer` agrees with the floor version |
| ChunkPosition.DecomposeNegativeOvershoots | src/chunk_position.rs:3-14 | for every position, on each axis `outer * size + inner` is the position plus the chunk size when the coordinate is negative and not a multiple of it, and the position otherwise |
| ChunkPosition.MinusOneCounterexample | src/chunk_position.rs:3-14 | -1 with size 4 gives chunk 0 and offset 3 (world 3), where floor division gives chunk -1 |
| ChunkPosition.IndexMirrorsFlipped | src/chunk_position.rs:16-19 | the unflipped numbering is the vertical mirror of the one in src/lib.rs |
| Rect.Column | src/lib.rs:233-235 | the inner loop lists `(x, lo + i)` for each `i` below `hi - lo` |
| Rect.Points | src/lib.rs:229-238 | every listed point lies in the half-open rectangle `[min, max)` |
| Rect.PointsMembership | src/lib.rs:229-238 | a point is listed by `points()` exactly when it lies in the half-open rectangle |
| Rect.PointsIncreasing | src/lib.rs:229-238 | the points come column by column in strictly increasing order |
| Rect.IncreasingDistinct | src/lib.rs:229-238 | an increasing list has no repeats |
| Rect.PointsLength | src/lib.rs:229-238 | `points()` has `width * height` entries |
| Canvas.New | src/lib.rs:79-116 | default colour falls back to `[0, 0, 0, 0]`; without a template the empty texture is chunk-sized with every pixel that colour; the store, queue and table start empty |
| Canvas.AddChunk | src/lib.rs:147-172 | an existing chunk changes nothing; a new one gets slot `positions.len()`, a fresh copy of the template and a sprite at `c * chunk_size` under the root; the asset store gains exactly that one image; old chunks and images unchanged; store stays valid |
| Canvas.AddChunkIdempotent | src/lib.rs:153-155 | adding a chunk twice equals adding it once |
| Canvas.AddChunks | src/lib.rs:270-272 | after adding a list of chunks the store holds exactly the old chunks and the listed ones, old entries unchanged |
| Canvas.AddChunksImages | src/lib.rs:270-272 | adding a list of chunks adds one image per new chunk and no other: the asset keys become the old keys plus the new chunks' handles |
| Canvas.SizedReadsInBounds | src/lib.rs:137-139 | on chunk-sized images the slice of `get_pixels_cpu` never runs past the end |
| Canvas.GetPixelsCpu | src/lib.rs:118-145 | one colour per input position, in order; the memo table gives the same colour as a direct lookup; absent chunk or image reads as the default colour |
| Canvas.PixelAt | src/lib.rs:118-145 | the corrected read: a point of a present chunk reads the four bytes at byte offset `4 * index` of its chunk's image; any other point reads as the default colour |
| Canvas.WriteThenPixelAt | src/lib.rs:137-139 | read at byte offset `4 * index`, a written colour reads back at its position and no other position changes |
| Canvas.ReadOffsetCounterexample | src/lib.rs:138-139 | on every valid 2x2 canvas whose chunk (0, 0) holds pixel 1 as `[9, 9, 9, 9]` and zeros elsewhere (`ExampleValid` gives one), the read at (1, 1) returns `[0, 0, 0, 9]` while the pixel holds `[9, 9, 9, 9]` |
| Canvas.SetPixelsGpu | src/lib.rs:174-195 | the stamps join the end of the queue in order; nothing else changes |
| Overlap.Footprint | src/lib.rs:250-257 | every chunk a stamp is distributed to lies between `start - 1` and `end` on each axis |
| Overlap.FootprintMembership | src/lib.rs:250-257 | a stamp lands in chunk `c` exactly when `start - 1 <= c <= end` on both axes |
| Overlap.FootprintLength | src/lib.rs:250-257 | a footprint has `(end.x - start.x + 2) * (end.y - start.y + 2)` chunks |
| Overlap.FootprintDistinct | src/lib.rs:250-257 | no chunk appears twice in a footprint, so a stamp is pushed once per bucket |
| Overlap.FootprintCoversStamp | src/lib.rs:250-257 | every chunk holding a pixel of the stamp is in its footprint |
| Overlap.FootprintExample | src/lib.rs:250-257 | a 5x5 stamp at (10, 10) on 100x100 chunks lands in exactly the four chunks with coordinates in -1..0 |
| Overlap.AppendToAll | src/lib.rs:259-268 | the table's keys become the old keys plus the listed chunks |
| Overlap.AppendToAllBuckets | src/lib.rs:259-268 | each listed bucket gains the stamp once at its end; other buckets unchanged |
| Overlap.CoveringNonEmpty | src/lib.rs:249-268 | a chunk's list of covering stamps is non-empty exactly when some stamp's footprint contains it |
| Overlap.Distribute | src/lib.rs:249-268 | the table has a bucket for a chunk exactly when some queued stamp's footprint contains that chunk |
| Overlap.DistributeBuckets | src/lib.rs:249-268 | every bucket is exactly the stamps covering its chunk, in queue order, each queue entry once |
| Overlap.DistributeSpec | src/lib.rs:249-268 | the table has a bucket for exactly the touched chunks, each equal to the stamps covering it |
| Overlap.PrepareChunks | src/lib.rs:241-276 | afterwards the table is replaced by this frame's buckets, every bucket's chunk exists, the store holds exactly the old chunks and the bucket keys, old chunks unchanged, queue empty; every other field (chunk size, default colour, template, root, simulation shaders) unchanged |
| Render.QueuePipeline | src/lib.rs:365-374 | the new id differs from every id already queued and runs the given program; pipelines queued earlier keep their ids and programs |
| Render.QueueSimulations | src/lib.rs:391-410 | one pipeline per simulation shader, in order, appended to the chunk's list; with no shader the chunk gets no list |
| Render.PrepareStamp | src/lib.rs:308-410 | one stamp gives its chunk an entry in both bind maps and a stamp pipeline; a stamp pipeline newly queued runs `place_tex.wgsl`, new simulation pipelines run the simulation shaders in order; the queue grows by exactly the pipelines the chunk lacked (the `contains_key` guards of lines 363 and 391), so a chunk that has them queues none; existing assignments and queued pipelines unchanged |
| Render.PrepareBucket | src/lib.rs:308-410 | after a non-empty bucket the chunk has a stamp pipeline and lacks none; the whole bucket queues exactly the pipelines the chunk lacked before it, the rest of its stamps queue none; existing assignments and queued pipelines unchanged |
| Render.PrepareBucketEffect | src/lib.rs:308-410 | a bucket appends its entries to both bind maps, inserts a stamp pipeline only if the chunk has none, and leaves other chunks and existing pipelines untouched; new pipelines run `place_tex.wgsl` and the simulation shaders, in order; the queue grows by exactly the pipelines the chunk lacked, and every new pipeline is assigned to the chunk |
| Render.NoOrphansTrans | src/lib.rs:363-410 | two steps that leave no unassigned pipeline and only add assignments leave none together |
| Render.PrepareStampNoOrphans | src/lib.rs:363-410 | every pipeline one stamp queues is assigned to its chunk, which had no such assignment |
| Render.PrepareBucketNoOrphans | src/lib.rs:363-410 | every pipeline a bucket queues is assigned to its chunk, which had no such assignment |
| Render.PrepareBindsNoOrphans | src/lib.rs:286-414 | every pipeline `prepare_binds` queues is assigned to a chunk that had no such assignment |
| Render.PrepareBinds | src/lib.rs:286-414 | on success, pipelines already assigned to a chunk stay assigned and pipelines already queued keep their ids and programs |
| Render.PrepareBindsPanics | src/lib.rs:324-326 | with the GPU-image unwraps assumed to succeed, `prepare_binds` panics exactly when a non-empty bucket's chunk is missing from the store |
| Render.PrepareBindsEffect | src/lib.rs:286-414 | each served chunk's bind maps grow by its bucket's entries; other chunks unchanged; pipeline assignments only added, never changed; every pipeline queued is assigned to a chunk that had no such assignment, so no pipeline is queued that no chunk uses |
| Render.PrepareBindsPrograms | src/lib.rs:363-410 | a served chunk that had no stamp pipeline gets one running `place_tex.wgsl`, and one that had no simulation list gets one pipeline per simulation shader, in shader order; no other pipeline is queued |
| Render.PrepareBindsKeepsConsistent | src/lib.rs:352-410 | after `prepare_chunks` the bind preparation does not panic and keeps every bound chunk's pipelines present, given a simulation shader |
| Render.StampLayer | src/lib.rs:423-441 | the first loop succeeds exactly when every visited chunk has a stamp pipeline; its dispatch list is then, chunk by chunk in visit order, one dispatch per entry of each chunk whose pipeline is ready |
| Render.StampLayerMembers | src/lib.rs:423-441 | once the first loop finishes, a dispatch is in its list exactly when it is a dispatch of some visited chunk with a stamp pipeline |
| Render.PipelineDispatches | src/lib.rs:444-465 | the dispatches of a chunk are, pipeline by pipeline in list order, one per entry for each ready simulation pipeline |
| Render.PipelineDispatchesMembers | src/lib.rs:444-465 | a dispatch is among a chunk's simulation dispatches exactly when one of its ready pipelines issues it over an entry of the chunk |
| Render.SimulationLayer | src/lib.rs:443-466 | the second loop succeeds exactly when every visited chunk has a simulation pipeline list; its dispatch list is then the chunks' simulation dispatches, chunk by chunk in visit order |
| Render.SimulationLayerMembers | src/lib.rs:443-466 | once the second loop finishes, a dispatch is in its list exactly when it is a simulation dispatch of some visited chunk with a pipeline list |
| Render.ApplyOps | src/lib.rs:416-470 | succeeds exactly when every chunk of the first loop has a stamp pipeline and every chunk of the second a simulation list; the dispatches are the first loop's, chunk by chunk, followed by the second loop's |
| Render.ApplyOpsEffect | src/lib.rs:416-470 | `apply_ops` succeeds exactly on consistent render data; it clears both bind maps, keeps the pipeline maps, and issues the per-chunk dispatch lists of both loops in visit order, one dispatch per entry and ready pipeline, each sized `chunk_size / 8` |
| Render.ApplyOpsOutcome | src/lib.rs:423-444 | `apply_ops` panics exactly when a chunk with stamp entries has no stamp pipeline or a chunk with simulation entries has no pipeline list |
| Render.ApplyOpsMembers | src/lib.rs:423-466 | on consistent render data both loops finish; every dispatch uses a ready pipeline and workgroups `(size.x / 8, size.y / 8, 1)`, and the dispatches are exactly those of the chunks holding entries |
| Render.EmptySimulationsPanic | src/lib.rs:444 | with no simulation shader, any frame that stamps a chunk without a pipeline list makes `apply_ops` panic, for every iteration order |
| Render.CompletedDispatches | src/lib.rs:444 | completing the lists gives a chunk without a list no dispatches and changes no other chunk's |
| Render.FixedLists | src/lib.rs:443-466 | reading a missing simulation list as empty leaves every chunk's dispatch list in both loops as it was |
| Render.ApplyOpsFixedEffect | src/lib.rs:443-466 | the corrected `apply_ops` panics only on a missing stamp pipeline, equals the original on consistent data, and issues the same per-chunk dispatch lists, a chunk without simulation pipelines getting none |
| Render.FrameNeverPanicsFixed | src/lib.rs:286-470 | with the corrected `apply_ops` a frame never panics, whether or not there are simulation shaders |
| CpuCanvas.New | src/pixel_map_cpu.rs:45-78 | succeeds exactly for a positive chunk size; the default template is chunk-sized transparent black; store and queues start empty |
| CpuCanvas.NewWf | src/pixel_map_cpu.rs:45-78 | a fresh canvas satisfies the canvas invariant |
| CpuCanvas.Zip | src/pixel_map_cpu.rs:134-138 | pairs positions with colours up to the shorter queue |
| CpuCanvas.ZipAppend | src/pixel_map_cpu.rs:88-89 | appending equally long queues appends their pairings |
| CpuCanvas.SetPixels | src/pixel_map_cpu.rs:80-91 | unequal lengths give `Err` and leave the canvas unchanged; otherwise the positions and colours are appended to their queues and nothing else changes, so equally long queues stay equally long and the pending writes gain the new pairs in order |
| CpuCanvas.ChunksOf | src/pixel_map_cpu.rs:107-108 | the chunks referenced by a list of positions, and only those |
| CpuCanvas.CreateChunk | src/pixel_map_cpu.rs:107-128 | an existing chunk changes nothing; a new one gets slot `img_data.len()`, a fresh copy of the template and a sprite under the root at its origin; the asset store gains exactly that one image |
| CpuCanvas.CreateChunks | src/pixel_map_cpu.rs:107-132 | the store stays valid and holds exactly the old chunks plus the chunks of the queued positions |
| CpuCanvas.CreateChunksEffect | src/pixel_map_cpu.rs:107-132 | old chunks keep slot and handle; each new chunk's image is a fresh copy of the template; old images untouched |
| CpuCanvas.CreateChunksHandles | src/pixel_map_cpu.rs:126-132 | new handles follow the old ones in `img_data`, and none was in the asset store before |
| CpuCanvas.CreateChunksImages | src/pixel_map_cpu.rs:107-132 | the first loop adds one image per new chunk and no other: the asset keys become the old keys plus the new chunks' handles |
| CpuCanvas.ApplyWrite | src/pixel_map_cpu.rs:139-149 | never panics on chunk-sized images; keeps the asset store's keys, image sizes and the store invariant |
| CpuCanvas.ApplyWritePixel | src/pixel_map_cpu.rs:143-148 | a write sets the colour of its own position and no other position of any chunk |
| CpuCanvas.ApplyWrites | src/pixel_map_cpu.rs:134-150 | the writes keep the store invariant and the asset store's keys |
| CpuCanvas.LastWrite | src/pixel_map_cpu.rs:134-150 | the colour of the last queued write to a position, and none exactly when no write names it |
| CpuCanvas.ApplyWritesEffect | src/pixel_map_cpu.rs:134-150 | on chunk-sized images no write panics; every position shows its last written colour or keeps its old one; images outside the store untouched |
| CpuCanvas.Flush | src/pixel_map_cpu.rs:94-155 | a successful flush keeps the store valid, empties both queues, and leaves exactly the old chunks plus those of the queued positions |
| CpuCanvas.FlushEffect | src/pixel_map_cpu.rs:94-155 | a flush keeps the canvas invariant and empties both queues; the chunks are the old ones plus those queued; each pixel shows its last queued colour, else its old colour or the template's |
| LegacyCanvas.New | src/pixel_map.rs:18-49 | panics unless both dimensions are positive, width first; the default texture has `x * y * 4` bytes, every pixel `[255, 0, 0, 128]`; all maps and queues empty |
| LegacyCanvas.AddChunk | src/pixel_map.rs:51-53 | the queue maps the chunk to the given texture; other queued chunks and all else unchanged |
| LegacyCanvas.AddChunkLastWins | src/pixel_map.rs:51-53 | queuing the same chunk twice keeps only the later texture |
| LegacyCanvas.AddChunkCommutes | src/pixel_map.rs:51-53 | requests for different chunks can be swapped |
| LegacyCanvas.RemoveChunk | src/pixel_map.rs:54-56 | appends the chunk to the removal queue and changes nothing else; in particular the chunk stays |
| LegacyCanvas.SpawnChunks | src/pixel_map.rs:64-96 | records exactly the visited chunks that do not exist yet; old sprites and images are kept |
| LegacyCanvas.SpawnChunksShows | src/pixel_map.rs:71-95 | each recorded chunk's new sprite sits at `pos * chunk_size * pixels_per_unit`, has no parent, and shows the queued texture or the template |
| LegacyCanvas.SpawnChunksEntities | src/pixel_map.rs:64-96 | over the keys of the add queue, each visited once, the loop spawns exactly one sprite per recorded chunk: the sprite count grows by the number of recorded chunks, and the recorded entities are distinct new sprites |
| LegacyCanvas.SpawnChunksImages | src/pixel_map.rs:64-96 | the asset store gains exactly the images the new sprites show, one `textures.add` per spawned sprite |
| LegacyCanvas.Process | src/pixel_map.rs:59-100 | the chunks become the old ones plus every queued chunk, the add queue is emptied, and nothing else in the canvas changes |
| LegacyCanvas.ProcessEffect | src/pixel_map.rs:59-100 | processing never replaces or drops a chunk; every queued chunk is afterwards a key; each new chunk gets its own freshly spawned sprite, and the sprite count grows by exactly the number of new chunks; the asset store gains exactly the images of the new sprites; add queue emptied; removal queue, chunk size, template, pixels per unit and old images untouched |

## Left out

- Canvas.GetPixelsCpu: a slice that runs past the end of a chunk's bytes panics. The method requires this not to happen instead of modelling the panic. `Canvas.SizedReadsInBounds` shows it cannot happen when chunk images are chunk-sized.
- Canvas.SetPixelsGpu: every stamp image must be loaded. The `expect("expect loaded")` panic is a precondition. The texture format and usage flags it sets are not modelled.
- Render.PrepareBindsEffect: the `gpu_images.get(..).unwrap()` of the chunk image and the stamp image is assumed to succeed. Upload of images to the GPU is not part of this model.
- Render.PrepareBinds: the same two `gpu_images` unwraps (src/lib.rs:324-327) are assumed to succeed, so the only panic modelled is the `positions[chunk_pos]` lookup.
- Render.PrepareBindsPanics: "panics exactly when" covers the store lookup only; the `gpu_images` unwraps of src/lib.rs:324-327 are assumed to succeed, as above.
- LegacyCanvas.SpawnChunks: its own contract does not count sprites, because a visit order that repeats a chunk would spawn twice. `LegacyCanvas.SpawnChunksEntities` states the count for duplicate-free orders, which is what iterating a hash map's keys gives.
- Overlap.PrepareChunks: the hash-map order in which chunks are created is a parameter. Any order gives the same table and the same set of chunks; the slots may differ.
- Overlap.FootprintExample: follows the code's `[start - 1, end]` padding, four chunks.
- Render.ApplyOpsEffect: command encoders, compute passes and queue submission are reduced to a list of dispatches. The pipeline compile state is the set `ready`.
- Multiple canvases: each system loops over every canvas, and `RenderData` is keyed only by chunk coordinate, so canvases share it. The model treats a single canvas.
- Zero chunk size: `PixelMap::new` in src/lib.rs does not check the size, and a zero size panics in `rem_euclid`. The lib.rs members require a positive chunk size.
- Integer widths: i32/u32 overflow and the `f64` round trip in `get_chunk_outer_i` are not modelled. Integers are unbounded, which matches the source for all positions and sizes that fit in i32.
- GPU and engine: buffers, bind group layouts, shaders and their effect on pixels, samplers, texture formats and usage flags are not modelled. Neither are the `PixelChunk` marker, plugin registration and system scheduling.
- src/main.rs and the example application: demo code with no library logic.

## Findings

| source | as written | input that shows it | evidently intended | confidence | as-written member | corrected member |
|---|---|---|---|---|---|---|
| src/lib.rs:138-139 | `get_pixels_cpu` slices `data[ind..ind + 4]` with the pixel number `ind` as a byte offset | a 2x2 chunk whose pixel 1 is `[9, 9, 9, 9]`: reading (1, 1) gives `[0, 0, 0, 9]` | read bytes `4 * ind .. 4 * ind + 4`, as the CPU write path writes them | high; not executed | Canvas.ReadOffsetCounterexample | Canvas.WriteThenPixelAt |
| src/chunk_position.rs:9-14 | the chunk coordinate uses truncating `/`, the offset `rem_euclid` | position x = -1, chunk size 4: chunk 0, offset 3, i.e. world x = 3 | floor division, so that `outer * size + inner == position` | medium (older copy, superseded in src/lib.rs); not executed | ChunkPosition.DecomposeNegativeOvershoots | Addressing.PositionRoundTrip |
| src/lib.rs:444 | with no simulation shader, `prepare_binds` fills `bind_map_2` but never `shader_map_2`, and `apply_ops` unwraps the missing list | `simulation_shaders = vec![]` and one stamp queued over a chunk | a chunk without simulation shaders has no simulation pipelines to run | medium; not executed | Render.EmptySimulationsPanic | Render.ApplyOpsFixedEffect |

=== FILE: addressing.dfy ===
/** Chunk addressing of the canvas (`get_chunk_outer_i`, `get_chunk_inner_i`,
    `get_chunk_index_i` in src/lib.rs; src/pixel_map_cpu.rs holds a textually
    identical copy, which the CPU canvas model imports from here).

    A world position `p` lies in chunk `Outer(p)` at offset `Inner(p)` from the
    chunk's origin; its pixel is number `Index(p)` of the chunk's buffer, rows
    stored top row first, so the world's y axis is flipped. */
module Addressing {
  import opened Bevy

  /** `(a as f64 / b as f64).floor()`. For operands of i32/u32 width the
      quotient is exact in f64, so it is integer floor division; Dafny's `/`
      on `int` rounds down for a positive divisor. */
  function FloorDiv(a: int, b: int): (q: int)
    requires b > 0
    ensures q * b <= a < q * b + b
  {
    a / b
  }

  /** `i32::rem_euclid`: the remainder of floor division, never negative. */
  function RemEuclid(a: int, b: int): (r: nat)
    requires b > 0
    ensures r < b
    ensures FloorDiv(a, b) * b + r == a
  {
    a % b
  }

  /** There is exactly one floor quotient: any `q` that brackets `a` is it. */
  lemma FloorDivUnique(a: int, b: int, q: int)
    requires b > 0
    requires q * b <= a < q * b + b
    ensures q == FloorDiv(a, b)
  {
    var f := FloorDiv(a, b);
    if q < f {
      MulMonotone(q + 1, f, b);
    } else if q > f {
      MulMonotone(f + 1, q, b);
    }
  }

  lemma MulMonotone(x: int, y: int, b: int)
    requires b > 0 && x <= y
    ensures x * b <= y * b
  {
    assert y * b - x * b == (y - x) * b;
  }

  /** Floor division is monotone in the dividend. */
  lemma FloorDivMonotone(a: int, a': int, b: int)
    requires b > 0 && a <= a'
    ensures FloorDiv(a, b) <= FloorDiv(a', b)
  {
    var q, q' := FloorDiv(a, b), FloorDiv(a', b);
    MulSign(q - q' - 1, b);
    assert (q - q' - 1) * b == q * b - q' * b - b;
  }

  lemma MulSign(x: int, b: int)
    requires b > 0
    ensures x >= 0 <==> x * b >= 0
  {
    if x >= 0 {
      MulMonotone(0, x, b);
    } else {
      MulMonotone(x, -1, b);
    }
  }

  /** `get_chunk_outer_i`: the chunk holding world position `p`. */
  function Outer(p: IVec2, size: UVec2): (c: IVec2)
    requires Positive(size)
    ensures c.x * size.x <= p.x < c.x * size.x + size.x
    ensures c.y * size.y <= p.y < c.y * size.y + size.y
  {
    IVec2(FloorDiv(p.x, size.x), FloorDiv(p.y, size.y))
  }

  /** `get_chunk_inner_i`: the offset of `p` from its chunk's origin. Added to
      the origin it gives `p` back. */
  function Inner(p: IVec2, size: UVec2): (i: UVec2)
    requires Positive(size)
    ensures i.x < size.x && i.y < size.y
    ensures Add(Scale(Outer(p, size), size), IVec2(i.x, i.y)) == p
  {
    UVec2(RemEuclid(p.x, size.x), RemEuclid(p.y, size.y))
  }

  /** `get_chunk_index_i`: the pixel number of `p` in its chunk's buffer. The
      row is counted from the top (`size.y - inner.y - 1`), which is never
      negative, so the u32 subtraction of the source cannot underflow. The
      column and flipped row can be read back from the index. */
  function Index(p: IVec2, size: UVec2): (n: nat)
    requires Positive(size)
    ensures n < Area(size)
    ensures n % size.x == Inner(p, size).x
    ensures n / size.x == size.y - 1 - Inner(p, size).y
  {
    var inner := Inner(p, size);
    var row: nat := size.y - inner.y - 1;
    RowMajor(row, inner.x, size)
  }

  /** Pixel number of (row, column) in a row-major buffer of the given size;
      the row and the column are recovered by `/` and `%`. */
  function RowMajor(row: nat, col: nat, size: UVec2): (n: nat)
    requires Positive(size)
    requires row < size.y && col < size.x
    ensures n < Area(size)
    ensures n % size.x == col && n / size.x == row
  {
    RowMajorFacts(row, col, size);
    row * size.x + col
  }

  lemma RowMajorFacts(row: nat, col: nat, size: UVec2)
    requires Positive(size)
    requires row < size.y && col < size.x
    ensures row * size.x + col < Area(size)
    ensures (row * size.x + col) / size.x == row
    ensures (row * size.x + col) % size.x == col
  {
    var n := row * size.x + col;
    assert (row + 1) * size.x == row * size.x + size.x;
    MulMonotone(row + 1, size.y, size.x);
    FloorDivUnique(n, size.x, row);
    assert n == (n / size.x) * size.x + n % size.x;
  }

  /** A chunk coordinate is `Outer(p)` exactly when `p` lies in that chunk's
      rectangle of the world. */
  lemma OuterCharacterization(p: IVec2, size: UVec2, c: IVec2)
    requires Positive(size)
    ensures c == Outer(p, size) <==>
              (c.x * size.x <= p.x < c.x * size.x + size.x &&
               c.y * size.y <= p.y < c.y * size.y + size.y)
  {
    if c.x * size.x <= p.x < c.x * size.x + size.x &&
       c.y * size.y <= p.y < c.y * size.y + size.y {
      FloorDivUnique(p.x, size.x, c.x);
      FloorDivUnique(p.y, size.y, c.y);
    }
  }

  /** The world position of the pixel at offset `inner` in chunk `c`. */
  function PositionOf(c: IVec2, inner: UVec2, size: UVec2): IVec2 {
    Add(Scale(c, size), IVec2(inner.x, inner.y))
  }

  /** Chunk and offset round-trip through world positions, in both directions. */
  lemma PositionRoundTrip(c: IVec2, inner: UVec2, size: UVec2, p: IVec2)
    requires Positive(size)
    ensures inner.x < size.x && inner.y < size.y ==>
              Outer(PositionOf(c, inner, size), size) == c &&
              Inner(PositionOf(c, inner, size), size) == inner
    ensures PositionOf(Outer(p, size), Inner(p, size), size) == p
  {
    if inner.x < size.x && inner.y < size.y {
      var q := PositionOf(c, inner, size);
      OuterCharacterization(q, size, c);
    }
  }

  /** Every pixel number of a chunk is `RowMajor` of its own row and column. */
  lemma RowMajorSplit(n: nat, size: UVec2)
    requires Positive(size) && n < Area(size)
    ensures n / size.x < size.y
    ensures RowMajor(n / size.x, n % size.x, size) == n
  {
    if n / size.x >= size.y {
      assert false;
    }
  }

  /** Inverse of `Index` within chunk `c`: the world position of pixel `n`. */
  function PixelPosition(c: IVec2, n: nat, size: UVec2): (p: IVec2)
    requires Positive(size) && n < Area(size)
    ensures Outer(p, size) == c
    ensures Index(p, size) == n
  {
    RowMajorSplit(n, size);
    var row := n / size.x;
    var inner := UVec2(n % size.x, size.y - 1 - row);
    var p := PositionOf(c, inner, size);
    PositionRoundTrip(c, inner, size, p);
    assert Inner(p, size) == inner;
    p
  }

  /** Within one chunk distinct positions have distinct pixel numbers, so
      `(Outer, Index)` identifies a world position. */
  lemma IndexInjective(p: IVec2, q: IVec2, size: UVec2)
    requires Positive(size)
    requires Outer(p, size) == Outer(q, size)
    requires Index(p, size) == Index(q, size)
    ensures p == q
  {
    PositionRoundTrip(Outer(p, size), Inner(p, size), size, p);
    PositionRoundTrip(Outer(q, size), Inner(q, size), size, q);
  }

  /** An example: chunk size 4x4, offset (1, 1) is pixel
      (4 - 1 - 1) * 4 + 1 = 9, in a chunk left of and below the origin too. */
  lemma IndexExample()
    ensures Index(IVec2(1, 1), UVec2(4, 4)) == 9
    ensures Outer(IVec2(-3, -3), UVec2(4, 4)) == IVec2(-1, -1)
    ensures Index(IVec2(-3, -3), UVec2(4, 4)) == 9
  {
    OuterCharacterization(IVec2(-3, -3), UVec2(4, 4), IVec2(-1, -1));
  }
}

=== FILE: bevy.dfy ===
/** The engine-side types the canvas works with: integer vectors, RGBA8
    images, the image asset store and the sprites an update asks the engine
    to spawn. Only the parts whose values the canvas reads or writes are kept. */
module Bevy {
  import opened Rust

  /** `IVec2`: a signed 2D integer vector (world positions, chunk coordinates). */
  datatype IVec2 = IVec2(x: int, y: int)

  /** `UVec2`: an unsigned 2D integer vector (chunk and stamp sizes). */
  datatype UVec2 = UVec2(x: nat, y: nat)

  function Add(a: IVec2, b: IVec2): IVec2 {
    IVec2(a.x + b.x, a.y + b.y)
  }

  /** `a + s.as_ivec2()`. */
  function AddSize(a: IVec2, s: UVec2): IVec2 {
    IVec2(a.x + s.x, a.y + s.y)
  }

  /** `a + IVec2 { x: d, y: d }`. */
  function Shift(a: IVec2, d: int): IVec2 {
    IVec2(a.x + d, a.y + d)
  }

  /** `a * s.as_ivec2()`: the world position of a chunk's origin. */
  function Scale(a: IVec2, s: UVec2): IVec2 {
    IVec2(a.x * s.x, a.y * s.y)
  }

  predicate Positive(s: UVec2) {
    s.x > 0 && s.y > 0
  }

  /** Number of pixels in a chunk of the given size. */
  function Area(s: UVec2): nat {
    s.x * s.y
  }

  newtype byte = b: int | 0 <= b < 256

  /** One pixel of an `Rgba8Unorm` image: four bytes. */
  type Rgba = c: seq<byte> | |c| == 4 witness [0, 0, 0, 0]

  /** An image as the canvas sees it: its dimensions and raw RGBA8 bytes,
      four per pixel. */
  datatype Image = Image(width: nat, height: nat, data: seq<byte>)

  /** The bytes of an image of `n` pixels that all have colour `c`
      (`Image::new_fill`, or the collected `vec![..]` of repeated pixels). */
  function Fill(n: nat, c: Rgba): (r: seq<byte>)
    ensures |r| == 4 * n
    ensures forall i :: 0 <= i < n ==> r[4 * i .. 4 * i + 4] == c
  {
    if n == 0 then [] else
      var r := Fill(n - 1, c) + c;
      assert forall i :: 0 <= i < n - 1 ==> r[4 * i .. 4 * i + 4] == Fill(n - 1, c)[4 * i .. 4 * i + 4];
      assert r[4 * (n - 1) .. 4 * n] == c;
      r
  }

  /** The four bytes of pixel `i` of a pixel buffer. */
  function PixelBytes(data: seq<byte>, i: nat): seq<byte>
    requires 4 * i + 4 <= |data|
  {
    data[4 * i .. 4 * i + 4]
  }

  /** `data[off..off + 4].copy_from_slice(&c)`. */
  function WriteRgba(data: seq<byte>, off: nat, c: Rgba): (r: seq<byte>)
    requires off + 4 <= |data|
    ensures |r| == |data|
    ensures r[off .. off + 4] == c
    ensures forall j :: 0 <= j < |data| && !(off <= j < off + 4) ==> r[j] == data[j]
  {
    data[..off] + c + data[off + 4..]
  }

  /** Writing pixel `i` leaves every other pixel's bytes as they were. */
  lemma WriteRgbaOtherPixel(data: seq<byte>, i: nat, j: nat, c: Rgba)
    requires 4 * i + 4 <= |data| && 4 * j + 4 <= |data|
    requires i != j
    ensures PixelBytes(WriteRgba(data, 4 * i, c), j) == PixelBytes(data, j)
  {
    var r := WriteRgba(data, 4 * i, c);
    forall k | 4 * j <= k < 4 * j + 4
      ensures r[k] == data[k]
    {
      assert !(4 * i <= k < 4 * i + 4);
    }
  }

  type Handle = nat

  /** `Assets<Image>`: images by handle. `Assets::add` hands out `next`, which
      no stored image uses yet. */
  datatype Assets = Assets(images: map<Handle, Image>, next: Handle) {
    predicate Valid() {
      forall h :: h in images ==> h < next
    }

    /** `Assets::add`: stores `img` under a fresh handle. */
    function AddImage(img: Image): (r: (Assets, Handle))
      requires Valid()
      ensures r.0.Valid()
      ensures r.1 !in images && r.1 in r.0.images && r.0.images[r.1] == img
      ensures r.0.images.Keys == images.Keys + {r.1}
      ensures forall h :: h in images ==> r.0.images[h] == images[h]
      ensures r.0.next > r.1
    {
      (Assets(images[next := img], next + 1), next)
    }
  }

  type Entity = nat

  /** A sprite the canvas asks the engine to spawn: the texture it shows, its
      world translation and the entity it is parented under, if any. */
  datatype Sprite = Sprite(image: Handle, translation: IVec2, parent: Option<Entity>)

  /** The engine state an update touches: the asset store and the sprites
      spawned so far (an entity is its index in `sprites`). */
  datatype World = World(assets: Assets, sprites: seq<Sprite>)

  /** `commands.spawn(..)` (and `add_child` when `parent` is given). */
  function Spawn(w: World, s: Sprite): (r: (World, Entity))
    ensures r.0.assets == w.assets
    ensures |r.0.sprites| == |w.sprites| + 1 && r.0.sprites[..|w.sprites|] == w.sprites
    ensures r.1 == |w.sprites| && r.0.sprites[r.1] == s
  {
    (World(w.assets, w.sprites + [s]), |w.sprites|)
  }
}

=== FILE: canvas.dfy ===
/** The current canvas (`PixelMap` in src/lib.rs) on its logic-phase side:
    construction, lazy chunk creation, the CPU read path, the stamp queue and
    the per-frame overlap table built by `prepare_chunks`. */
module Canvas {
  import opened Rust
  import opened Bevy
  import Addressing
  import Rect
  import opened ChunkStore

  /** `PixelPositionedTexture`: a source image queued to be stamped with its
      top-left corner at world `position`. */
  datatype Stamp = Stamp(position: IVec2, image: Handle, size: UVec2)

  /** `PixelMap` of src/lib.rs; `store` holds `positions` and `image_data`,
      `buckets` is `texture_to_chunk_posses`. The sampler is not modelled. */
  datatype PixelMap = PixelMap(
    chunkSize: UVec2,
    store: Store,
    simulationShaders: seq<string>,
    emptyTexture: Image,
    root: Entity,
    defaultColor: Rgba,
    textureQueue: seq<Stamp>,
    buckets: map<IVec2, seq<Stamp>>)

  const Transparent: Rgba := [0, 0, 0, 0]

  /** `PixelMap::new`: the default colour falls back to transparent black, and
      without a template image every pixel of a fresh chunk has that colour. */
  function New(chunkSize: UVec2, root: Entity, emptyTexture: Option<Image>,
               defaultColor: Option<Rgba>, simulationShaders: seq<string>): (pm: PixelMap)
    ensures pm.defaultColor == (if defaultColor.Some? then defaultColor.value else Transparent)
    ensures emptyTexture.Some? ==> pm.emptyTexture == emptyTexture.value
    ensures emptyTexture.None? ==>
              && pm.emptyTexture.width == chunkSize.x && pm.emptyTexture.height == chunkSize.y
              && |pm.emptyTexture.data| == 4 * Area(chunkSize)
              && forall i :: 0 <= i < Area(chunkSize) ==> PixelBytes(pm.emptyTexture.data, i) == pm.defaultColor
    ensures pm.store == Empty && pm.textureQueue == [] && pm.buckets == map[]
    ensures pm.chunkSize == chunkSize && pm.root == root && pm.simulationShaders == simulationShaders
  {
    var color := defaultColor.UnwrapOr(Transparent);
    var empty := if emptyTexture.Some? then emptyTexture.value
                 else Image(chunkSize.x, chunkSize.y, Fill(Area(chunkSize), color));
    PixelMap(chunkSize, Empty, simulationShaders, empty, root, color, [], map[])
  }

  lemma EmptyValid(assets: Assets)
    requires assets.Valid()
    ensures Valid(Empty, assets)
  {
  }

  /** `add_chunk`: a no-op for a chunk that exists; otherwise a copy of the
      template image is added to the asset store, a sprite showing it is
      spawned under the root entity at the chunk's world origin, and the
      chunk takes the next slot. */
  function AddChunk(pm: PixelMap, w: World, c: IVec2): (r: (PixelMap, World))
    requires Valid(pm.store, w.assets)
    ensures Valid(r.0.store, r.1.assets)
    ensures c in r.0.store.positions
    ensures c in pm.store.positions ==> r == (pm, w)
    ensures c !in pm.store.positions ==>
              && r.0.store.positions.Keys == pm.store.positions.Keys + {c}
              && r.0.store.positions[c] == |pm.store.positions|
              && |r.0.store.images| == |pm.store.images| + 1
              && HandleOf(r.0.store, c) !in w.assets.images
              && HandleOf(r.0.store, c) in r.1.assets.images
              && r.1.assets.images[HandleOf(r.0.store, c)] == pm.emptyTexture
              && r.1.assets.images.Keys == w.assets.images.Keys + {HandleOf(r.0.store, c)}
              && r.1.sprites == w.sprites + [Sprite(HandleOf(r.0.store, c), Scale(c, pm.chunkSize), Some(pm.root))]
    ensures forall d :: d in pm.store.positions ==>
              r.0.store.positions[d] == pm.store.positions[d] && HandleOf(r.0.store, d) == HandleOf(pm.store, d)
    ensures forall h :: h in w.assets.images ==> h in r.1.assets.images && r.1.assets.images[h] == w.assets.images[h]
    ensures r.0 == pm.(store := r.0.store)
  {
    if c in pm.store.positions then (pm, w) else
      var added := w.assets.AddImage(pm.emptyTexture);
      var h := added.1;
      var spawned := Spawn(World(added.0, w.sprites), Sprite(h, Scale(c, pm.chunkSize), Some(pm.root)));
      PushValid(pm.store, w.assets, c, pm.emptyTexture, added.0, h);
      (pm.(store := Push(pm.store, c, h)), spawned.0)
  }

  /** Adding a chunk twice is the same as adding it once. */
  lemma AddChunkIdempotent(pm: PixelMap, w: World, c: IVec2)
    requires Valid(pm.store, w.assets)
    ensures var (pm', w') := AddChunk(pm, w, c);
            AddChunk(pm', w', c) == (pm', w')
            && |pm'.store.positions| <= |pm.store.positions| + 1
  {
  }

  /** `add_chunk` for each coordinate of `cs` in turn. Afterwards the store
      holds exactly the old chunks plus those of `cs`, the old ones unchanged. */
  function AddChunks(pm: PixelMap, w: World, cs: seq<IVec2>): (r: (PixelMap, World))
    requires Valid(pm.store, w.assets)
    decreases |cs|
    ensures Valid(r.0.store, r.1.assets)
    ensures forall c :: c in r.0.store.positions <==> c in pm.store.positions || c in cs
    ensures forall d :: d in pm.store.positions ==>
              r.0.store.positions[d] == pm.store.positions[d] && HandleOf(r.0.store, d) == HandleOf(pm.store, d)
    ensures forall h :: h in w.assets.images ==> h in r.1.assets.images && r.1.assets.images[h] == w.assets.images[h]
    ensures r.0 == pm.(store := r.0.store)
  {
    if cs == [] then (pm, w) else
      var (pm1, w1) := AddChunk(pm, w, cs[0]);
      assert forall c :: c in cs <==> c == cs[0] || c in cs[1..];
      AddChunks(pm1, w1, cs[1..])
  }

  /** Adding a list of chunks adds exactly one image per new chunk to the
      asset store: the keys afterwards are the old keys and the handles of
      the new chunks. */
  lemma {:induction false} AddChunksImages(pm: PixelMap, w: World, cs: seq<IVec2>)
    requires Valid(pm.store, w.assets)
    decreases |cs|
    ensures var r := AddChunks(pm, w, cs);
            r.1.assets.images.Keys == w.assets.images.Keys + NewHandles(pm.store, r.0.store)
  {
    var r := AddChunks(pm, w, cs);
    if cs == [] {
      assert NewHandles(pm.store, r.0.store) == {};
    } else {
      var c := cs[0];
      var (pm1, w1) := AddChunk(pm, w, c);
      AddChunksImages(pm1, w1, cs[1..]);
      assert r == AddChunks(pm1, w1, cs[1..]);
      if c !in pm.store.positions {
        var h := HandleOf(pm1.store, c);
        NewHandlesStep(pm.store, pm1.store, r.0.store, c);
        UnionStep(w.assets.images.Keys, w1.assets.images.Keys, r.1.assets.images.Keys,
                  {h}, NewHandles(pm1.store, r.0.store), NewHandles(pm.store, r.0.store));
      }
    }
  }

  /** The bytes of `p`'s pixel as `get_pixels_cpu` slices them:
      `data[index .. index + 4]`, or the default colour when the chunk or its
      image is missing. */
  function PixelAsWritten(pm: PixelMap, assets: Assets, p: IVec2): Rgba
    requires Valid(pm.store, assets) && Positive(pm.chunkSize)
    requires ReadInBounds(pm, assets, p)
  {
    match ChunkData(pm.store, assets, Addressing.Outer(p, pm.chunkSize))
    case None => pm.defaultColor
    case Some(d) => var i := Addressing.Index(p, pm.chunkSize); d[i .. i + 4]
  }

  /** The slice `true_res[ind..ind + 4]` stays inside the chunk's bytes (it
      panics otherwise). */
  predicate ReadInBounds(pm: PixelMap, assets: Assets, p: IVec2)
    requires Valid(pm.store, assets) && Positive(pm.chunkSize)
  {
    match ChunkData(pm.store, assets, Addressing.Outer(p, pm.chunkSize))
    case None => true
    case Some(d) => Addressing.Index(p, pm.chunkSize) + 4 <= |d|
  }

  /** On a canvas whose chunk images have four bytes per pixel the slice of
      `get_pixels_cpu` never runs past the end, although it starts at the
      wrong offset. */
  lemma SizedReadsInBounds(pm: PixelMap, assets: Assets, p: IVec2)
    requires Valid(pm.store, assets) && Positive(pm.chunkSize)
    requires ImagesSized(pm.store, assets, pm.chunkSize)
    ensures ReadInBounds(pm, assets, p)
  {
    var i := Addressing.Index(p, pm.chunkSize);
    assert i + 4 <= 4 * Area(pm.chunkSize);
  }

  /** `get_pixels_cpu`: first memoises each distinct chunk's bytes, then maps
      every position to a colour. The result has one colour per position, in
      order, each equal to a direct lookup of that position; a position whose
      chunk or image is missing reads as the default colour. */
  method GetPixelsCpu(pm: PixelMap, positions: seq<IVec2>, assets: Assets) returns (colors: seq<Rgba>)
    requires Valid(pm.store, assets) && Positive(pm.chunkSize)
    requires forall i :: 0 <= i < |positions| ==> ReadInBounds(pm, assets, positions[i])
    ensures |colors| == |positions|
    ensures forall i :: 0 <= i < |positions| ==> colors[i] == PixelAsWritten(pm, assets, positions[i])
    ensures forall i :: 0 <= i < |positions| ==>
              ChunkData(pm.store, assets, Addressing.Outer(positions[i], pm.chunkSize)).None? ==>
              colors[i] == pm.defaultColor
  {
    var resources: map<IVec2, Option<seq<byte>>> := map[];
    var k := 0;
    while k < |positions|
      invariant 0 <= k <= |positions|
      invariant forall c :: c in resources ==> resources[c] == ChunkData(pm.store, assets, c)
      invariant forall j :: 0 <= j < k ==> Addressing.Outer(positions[j], pm.chunkSize) in resources
    {
      var outer := Addressing.Outer(positions[k], pm.chunkSize);
      if outer !in resources {
        resources := resources[outer := ChunkData(pm.store, assets, outer)];
      }
      k := k + 1;
    }
    colors := [];
    k := 0;
    while k < |positions|
      invariant 0 <= k <= |positions|
      invariant |colors| == k
      invariant forall j :: 0 <= j < k ==> colors[j] == PixelAsWritten(pm, assets, positions[j])
    {
      var outer := Addressing.Outer(positions[k], pm.chunkSize);
      var color: Rgba;
      match resources[outer] {
        case None =>
          color := pm.defaultColor;
        case Some(d) =>
          var ind := Addressing.Index(positions[k], pm.chunkSize);
          color := d[ind .. ind + 4];
      }
      colors := colors + [color];
      k := k + 1;
    }
  }

  /** The colour of `p` read at its pixel's byte offset `4 * index`, the
      read that `get_pixels_cpu` evidently intends. */
  function PixelAt(pm: PixelMap, assets: Assets, p: IVec2): (r: Rgba)
    requires Valid(pm.store, assets) && Positive(pm.chunkSize)
    requires ImagesSized(pm.store, assets, pm.chunkSize)
    ensures Addressing.Outer(p, pm.chunkSize) !in pm.store.positions ==> r == pm.defaultColor
    ensures Addressing.Outer(p, pm.chunkSize) in pm.store.positions ==>
              var d := assets.images[HandleOf(pm.store, Addressing.Outer(p, pm.chunkSize))].data;
              var i := Addressing.Index(p, pm.chunkSize);
              |r| == 4 && forall k :: 0 <= k < 4 ==> r[k] == d[4 * i + k]
  {
    if Addressing.Outer(p, pm.chunkSize) in pm.store.positions
    then Pixel(pm.store, assets, pm.chunkSize, p)
    else pm.defaultColor
  }

  /** Writing colour `col` at the bytes of `p`'s pixel (`4 * index`, as the
      CPU write path does) and reading back at the same offset yields `col`
      at `p` and leaves every other position's colour unchanged. */
  lemma WriteThenPixelAt(pm: PixelMap, assets: Assets, p: IVec2, q: IVec2, col: Rgba)
    requires Valid(pm.store, assets) && Positive(pm.chunkSize)
    requires ImagesSized(pm.store, assets, pm.chunkSize)
    requires Addressing.Outer(p, pm.chunkSize) in pm.store.positions
    ensures var h := HandleOf(pm.store, Addressing.Outer(p, pm.chunkSize));
            var img := assets.images[h];
            var i := Addressing.Index(p, pm.chunkSize);
            var assets' := assets.(images := assets.images[h := img.(data := WriteRgba(img.data, 4 * i, col))]);
            && Valid(pm.store, assets') && ImagesSized(pm.store, assets', pm.chunkSize)
            && PixelAt(pm, assets', p) == col
            && (q != p ==> PixelAt(pm, assets', q) == PixelAt(pm, assets, q))
  {
    var size := pm.chunkSize;
    var c := Addressing.Outer(p, size);
    var h := HandleOf(pm.store, c);
    var img := assets.images[h];
    var i := Addressing.Index(p, size);
    var assets' := assets.(images := assets.images[h := img.(data := WriteRgba(img.data, 4 * i, col))]);
    assert Valid(pm.store, assets');
    var cq := Addressing.Outer(q, size);
    if q != p && cq in pm.store.positions {
      if cq == c {
        if Addressing.Index(q, size) == i {
          Addressing.IndexInjective(p, q, size);
        }
        WriteRgbaOtherPixel(img.data, i, Addressing.Index(q, size), col);
      } else {
        assert HandleOf(pm.store, cq) != h;
      }
    }
  }

  /** The 2x2 canvas of the counterexample below: chunk (0, 0) in slot 0 with
      image handle 0, whose pixel 1 holds [9, 9, 9, 9] and whose other pixels
      are transparent. */
  const ExampleSize := UVec2(2, 2)
  const ExampleData: seq<byte> := [0, 0, 0, 0, 9, 9, 9, 9, 0, 0, 0, 0, 0, 0, 0, 0]
  const ExampleAssets := Assets(map[0 := Image(2, 2, ExampleData)], 1)
  const ExampleMap := PixelMap(ExampleSize, Store(map[IVec2(0, 0) := 0], [0]), [], Image(2, 2, ExampleData),
                               0, Transparent, [], map[])

  lemma ExampleValid()
    ensures Valid(ExampleMap.store, ExampleAssets)
    ensures ImagesSized(ExampleMap.store, ExampleAssets, ExampleSize)
    ensures ChunkData(ExampleMap.store, ExampleAssets, IVec2(0, 0)) == Some(ExampleData)
    ensures ExampleMap.chunkSize == ExampleSize
  {
  }

  /** The read offset of `get_pixels_cpu` is a pixel number used as a byte
      offset. On any 2x2 canvas whose chunk (0, 0) holds `ExampleData` (one
      such canvas is `ExampleMap`, by `ExampleValid`), position (1, 1) is
      pixel 1 of its chunk, whose bytes are 4..8, but the read takes bytes
      1..5 and returns [0, 0, 0, 9] instead of the stored [9, 9, 9, 9]. */
  lemma ReadOffsetCounterexample(pm: PixelMap, assets: Assets)
    requires Valid(pm.store, assets) && pm.chunkSize == UVec2(2, 2)
    requires ImagesSized(pm.store, assets, pm.chunkSize)
    requires ChunkData(pm.store, assets, IVec2(0, 0)) == Some(ExampleData)
    ensures ReadInBounds(pm, assets, IVec2(1, 1))
    ensures PixelAsWritten(pm, assets, IVec2(1, 1)) == [0, 0, 0, 9]
    ensures PixelAt(pm, assets, IVec2(1, 1)) == [9, 9, 9, 9]
  {
    ExampleAddress();
    ExampleBytes();
    ReadsAt(pm, assets, IVec2(1, 1), ExampleData);
  }

  /** Both reads of a position whose chunk holds bytes `d`. */
  lemma ReadsAt(pm: PixelMap, assets: Assets, p: IVec2, d: seq<byte>)
    requires Valid(pm.store, assets) && Positive(pm.chunkSize) && ImagesSized(pm.store, assets, pm.chunkSize)
    requires ChunkData(pm.store, assets, Addressing.Outer(p, pm.chunkSize)) == Some(d)
    ensures ReadInBounds(pm, assets, p)
    ensures var i := Addressing.Index(p, pm.chunkSize);
            PixelAsWritten(pm, assets, p) == d[i .. i + 4] && PixelAt(pm, assets, p) == d[4 * i .. 4 * i + 4]
  {
  }

  lemma ExampleAddress()
    ensures Addressing.Outer(IVec2(1, 1), ExampleSize) == IVec2(0, 0)
    ensures Addressing.Index(IVec2(1, 1), ExampleSize) == 1
  {
    Addressing.OuterCharacterization(IVec2(1, 1), ExampleSize, IVec2(0, 0));
    assert Addressing.Inner(IVec2(1, 1), ExampleSize) == UVec2(1, 1);
  }

  lemma ExampleBytes()
    ensures ExampleData[1 .. 5] == [0, 0, 0, 9]
    ensures ExampleData[4 .. 8] == [9, 9, 9, 9]
  {
  }

  /** `set_pixels_gpu`: the stamps join the end of the queue in order; the
      chunk store and everything else is left alone. Each stamp's image must
      be loaded (`expect("expect loaded")`). */
  function SetPixelsGpu(pm: PixelMap, stamps: seq<Stamp>, assets: Assets): (r: PixelMap)
    requires forall i :: 0 <= i < |stamps| ==> stamps[i].image in assets.images
    ensures |r.textureQueue| == |pm.textureQueue| + |stamps|
    ensures r.textureQueue[..|pm.textureQueue|] == pm.textureQueue
    ensures r.textureQueue[|pm.textureQueue|..] == stamps
    ensures r.(textureQueue := pm.textureQueue) == pm
  {
    pm.(textureQueue := pm.textureQueue + stamps)
  }
}

=== FILE: chunk_position.dfy ===
/** The earliest chunk addressing (src/chunk_position.rs). Its offset is the
    same Euclidean remainder as `Addressing.Inner`, but its chunk coordinate
    uses Rust's `/` on i32, which truncates toward zero, and its pixel number
    is row-major without the vertical flip. For a negative position that is
    not a multiple of the chunk size the two disagree: the offset is measured
    from one chunk while the coordinate names its right/upper neighbour. */
module ChunkPosition {
  import opened Bevy
  import Addressing

  /** Rust's `/` on integers: the quotient rounded toward zero. */
  function TruncDiv(a: int, b: int): (q: int)
    requires b > 0
    ensures a >= 0 ==> q * b <= a < q * b + b
    ensures a < 0 ==> q * b - b < a <= q * b
  {
    if a >= 0 then a / b else -((-a) / b)
  }

  /** `get_chunk_outer_i` of this file: truncating division per axis. */
  function Outer(p: IVec2, size: UVec2): (c: IVec2)
    requires Positive(size)
    ensures p.x >= 0 ==> c.x * size.x <= p.x < c.x * size.x + size.x
    ensures p.x < 0 ==> c.x * size.x - size.x < p.x <= c.x * size.x
    ensures p.y >= 0 ==> c.y * size.y <= p.y < c.y * size.y + size.y
    ensures p.y < 0 ==> c.y * size.y - size.y < p.y <= c.y * size.y
  {
    IVec2(TruncDiv(p.x, size.x), TruncDiv(p.y, size.y))
  }

  /** `get_chunk_index_i` of this file: `inner.y * size.x + inner.x`, row 0 at
      the chunk's lowest world row. */
  function Index(p: IVec2, size: UVec2): (n: nat)
    requires Positive(size)
    ensures n < Area(size)
    ensures n % size.x == Addressing.Inner(p, size).x
    ensures n / size.x == Addressing.Inner(p, size).y
  {
    var inner := Addressing.Inner(p, size);
    Addressing.RowMajor(inner.y, inner.x, size)
  }

  /** One axis: truncation agrees with floor division on non-negative
      dividends and on exact multiples, and is one more otherwise. */
  lemma TruncVersusFloor(a: int, b: int)
    requires b > 0
    ensures a >= 0 || a % b == 0 ==> TruncDiv(a, b) == Addressing.FloorDiv(a, b)
    ensures a < 0 && a % b != 0 ==> TruncDiv(a, b) == Addressing.FloorDiv(a, b) + 1
  {
    var t := TruncDiv(a, b);
    if a < 0 {
      var f := Addressing.FloorDiv(a, b);
      if a % b == 0 {
        assert f * b == a;
        Addressing.FloorDivUnique(-a, b, -f);
      } else {
        assert f * b < a;
        Addressing.FloorDivUnique(-a, b, -f - 1);
      }
    }
  }

  /** For positions with non-negative coordinates the truncating chunk
      coordinate and offset put the position back together. */
  lemma DecomposeNonNegative(p: IVec2, size: UVec2)
    requires Positive(size)
    requires p.x >= 0 && p.y >= 0
    ensures Outer(p, size) == Addressing.Outer(p, size)
    ensures Add(Scale(Outer(p, size), size), IVec2(Addressing.Inner(p, size).x, Addressing.Inner(p, size).y)) == p
  {
    TruncVersusFloor(p.x, size.x);
    TruncVersusFloor(p.y, size.y);
  }

  /** As written, on each axis a negative coordinate that is not a multiple
      of the chunk size is reassembled one chunk too far: `outer * size +
      inner` overshoots the position by exactly the chunk size. Every other
      coordinate is reassembled exactly. */
  lemma DecomposeNegativeOvershoots(p: IVec2, size: UVec2)
    requires Positive(size)
    ensures Outer(p, size).x * size.x + Addressing.Inner(p, size).x ==
            if p.x < 0 && p.x % size.x != 0 then p.x + size.x else p.x
    ensures Outer(p, size).y * size.y + Addressing.Inner(p, size).y ==
            if p.y < 0 && p.y % size.y != 0 then p.y + size.y else p.y
  {
    TruncVersusFloor(p.x, size.x);
    TruncVersusFloor(p.y, size.y);
  }

  /** The concrete case: x = -1 with chunk size 4 lands in chunk 0 at offset 3,
      which is world x = 3, not -1. */
  lemma MinusOneCounterexample()
    ensures Outer(IVec2(-1, -1), UVec2(4, 4)) == IVec2(0, 0)
    ensures Addressing.Inner(IVec2(-1, -1), UVec2(4, 4)) == UVec2(3, 3)
    ensures Addressing.Outer(IVec2(-1, -1), UVec2(4, 4)) == IVec2(-1, -1)
  {
  }

  /** The two pixel numbering schemes are each other's vertical mirror. */
  lemma IndexMirrorsFlipped(p: IVec2, size: UVec2)
    requires Positive(size)
    ensures Index(p, size) / size.x == size.y - 1 - Addressing.Index(p, size) / size.x
    ensures Index(p, size) % size.x == Addressing.Index(p, size) % size.x
  {
  }
}

=== FILE: chunk_store.dfy ===
/** The sparse chunk store shared by the canvas generations in src/lib.rs and
    src/pixel_map_cpu.rs: `positions` maps a chunk coordinate to a slot, and
    slot `k` of `image_data` (`img_data`) holds the handle of that chunk's
    image in the asset store. */
module ChunkStore {
  import opened Rust
  import opened Bevy
  import Addressing

  datatype Store = Store(positions: map<IVec2, nat>, images: seq<Handle>)

  const Empty := Store(map[], [])

  /** The store invariant: `positions` hands out the slots of `images`, each
      to one chunk; the handles are distinct and were issued by `assets`. */
  predicate Valid(s: Store, assets: Assets) {
    SlotsValid(s) && HandlesValid(s, assets)
  }

  predicate SlotsValid(s: Store) {
    && |s.positions| == |s.images|
    && (forall c :: c in s.positions ==> s.positions[c] < |s.images|)
    && (forall c, d :: c in s.positions && d in s.positions && c != d ==> s.positions[c] != s.positions[d])
  }

  predicate HandlesValid(s: Store, assets: Assets) {
    && (forall i, j :: 0 <= i < j < |s.images| ==> s.images[i] != s.images[j])
    && (forall i :: 0 <= i < |s.images| ==> s.images[i] < assets.next)
    && assets.Valid()
  }

  /** `image_data[positions[c]]`: the image handle of chunk `c`. */
  function HandleOf(s: Store, c: IVec2): Handle
    requires c in s.positions && s.positions[c] < |s.images|
  {
    s.images[s.positions[c]]
  }

  /** The image handles of the chunks of `s'` that `s` does not hold. */
  function NewHandles(s: Store, s': Store): set<Handle>
    requires SlotsValid(s')
  {
    set c | c in s'.positions && c !in s.positions :: HandleOf(s', c)
  }

  /** When `s1` adds chunk `c` to `s` and `s2` keeps the chunks of `s1`
      with their handles, the chunks new in `s2` are `c` and those new
      relative to `s1`. */
  lemma NewHandlesStep(s: Store, s1: Store, s2: Store, c: IVec2)
    requires SlotsValid(s1) && SlotsValid(s2)
    requires s1.positions.Keys == s.positions.Keys + {c} && c !in s.positions
    requires forall d :: d in s1.positions ==> d in s2.positions && HandleOf(s2, d) == HandleOf(s1, d)
    ensures NewHandles(s, s2) == {HandleOf(s1, c)} + NewHandles(s1, s2)
  {
    var h := HandleOf(s1, c);
    forall g | g in NewHandles(s, s2)
      ensures g in {h} + NewHandles(s1, s2)
    {
      var d :| d in s2.positions && d !in s.positions && HandleOf(s2, d) == g;
      if d != c {
        assert d !in s1.positions;
        assert g in NewHandles(s1, s2);
      }
    }
    forall g | g in NewHandles(s1, s2)
      ensures g in NewHandles(s, s2)
    {
      var d :| d in s2.positions && d !in s1.positions && HandleOf(s2, d) == g;
      assert d !in s.positions;
    }
    assert HandleOf(s2, c) == h;
    assert h in NewHandles(s, s2);
  }


  /** Set bookkeeping for one step of a loop: if the keys grow by `a` and
      then by `b`, they grow by `a + b` overall. */
  lemma UnionStep<T>(k: set<T>, k1: set<T>, k2: set<T>, a: set<T>, b: set<T>, n: set<T>)
    requires k1 == k + a && k2 == k1 + b && n == a + b
    ensures k2 == k + n
  {
  }

  /** Registers chunk `c` with image `h` under the next free slot
      (`positions.insert(c, positions.len())`, `image_data.push(h)`). */
  function Push(s: Store, c: IVec2, h: Handle): Store {
    Store(s.positions[c := |s.positions|], s.images + [h])
  }

  /** Pushing a new chunk with a freshly added image keeps the store valid,
      gives the chunk the slot after all existing ones and leaves every
      existing chunk's slot and handle as it was. */
  lemma PushValid(s: Store, assets: Assets, c: IVec2, img: Image, assets': Assets, h: Handle)
    requires Valid(s, assets)
    requires c !in s.positions
    requires assets.AddImage(img) == (assets', h)
    ensures Valid(Push(s, c, h), assets')
    ensures Push(s, c, h).positions.Keys == s.positions.Keys + {c}
    ensures Push(s, c, h).positions[c] == |s.images|
    ensures HandleOf(Push(s, c, h), c) == h
    ensures forall d :: d in s.positions ==> HandleOf(Push(s, c, h), d) == HandleOf(s, d)
  {
    PushSlots(s, c, h);
    PushHandles(s, assets, h, assets');
  }

  lemma PushSlots(s: Store, c: IVec2, h: Handle)
    requires SlotsValid(s) && c !in s.positions
    ensures SlotsValid(Push(s, c, h))
    ensures Push(s, c, h).positions.Keys == s.positions.Keys + {c}
  {
    var t := Push(s, c, h);
    assert t.positions.Keys == s.positions.Keys + {c};
    assert |t.positions| == |s.positions| + 1;
    forall d, e | d in t.positions && e in t.positions && d != e
      ensures t.positions[d] != t.positions[e]
    {
      if d != c && e != c {
        assert t.positions[d] == s.positions[d] && t.positions[e] == s.positions[e];
      } else if d == c {
        assert t.positions[e] == s.positions[e];
      } else {
        assert t.positions[d] == s.positions[d];
      }
    }
  }

  lemma PushHandles(s: Store, assets: Assets, h: Handle, assets': Assets)
    requires HandlesValid(s, assets)
    requires h == assets.next && assets'.next == h + 1 && assets'.Valid()
    ensures forall c :: HandlesValid(Push(s, c, h), assets')
  {
    forall c
      ensures HandlesValid(Push(s, c, h), assets')
    {
      var t := Push(s, c, h);
      forall i | 0 <= i < |t.images|
        ensures t.images[i] < assets'.next
      {
        if i < |s.images| {
          assert t.images[i] == s.images[i];
        }
      }
      forall i, j | 0 <= i < j < |t.images|
        ensures t.images[i] != t.images[j]
      {
        assert t.images[i] == s.images[i];
        if j < |s.images| {
          assert t.images[j] == s.images[j];
        }
      }
    }
  }

  /** Distinct chunks of a valid store have distinct image handles, so a
      write to one chunk's image never shows through another chunk. */
  lemma HandleInjective(s: Store, assets: Assets, c: IVec2, d: IVec2)
    requires Valid(s, assets)
    requires c in s.positions && d in s.positions && c != d
    ensures HandleOf(s, c) != HandleOf(s, d)
  {
    var i, j := s.positions[c], s.positions[d];
    assert i != j;
    if i < j {
      assert s.images[i] != s.images[j];
    } else {
      assert s.images[j] != s.images[i];
    }
  }

  /** The slot numbers `0 .. n`. */
  function Slots(n: nat): (r: set<nat>)
    ensures forall k: nat :: k in r <==> k < n
  {
    if n == 0 then {} else Slots(n - 1) + {n - 1}
  }

  /** Every slot of a valid store belongs to some chunk: the slots in use are
      exactly `0 .. |images|`. */
  lemma SlotsOnto(s: Store, assets: Assets)
    requires Valid(s, assets)
    ensures s.positions.Values == Slots(|s.images|)
  {
    assert s.positions.Values <= Slots(|s.images|);
    InjectiveValues(s.positions);
    SlotsSize(|s.images|);
    SubsetSameSize(s.positions.Values, Slots(|s.images|));
  }

  lemma {:induction false} InjectiveValues(m: map<IVec2, nat>)
    requires forall c, d :: c in m && d in m && c != d ==> m[c] != m[d]
    ensures |m.Values| == |m.Keys|
    decreases |m.Keys|
  {
    if m.Keys != {} {
      var c :| c in m.Keys;
      var m' := map d | d in m.Keys && d != c :: m[d];
      assert m'.Keys == m.Keys - {c};
      InjectiveValues(m');
      forall v | v in m.Values
        ensures v in m'.Values + {m[c]}
      {
        var d :| d in m && m[d] == v;
        if d != c {
          assert m'[d] == v;
        }
      }
      forall v | v in m'.Values + {m[c]}
        ensures v in m.Values
      {
        if v != m[c] {
          var d :| d in m' && m'[d] == v;
          assert m[d] == v;
        }
      }
      assert m.Values == m'.Values + {m[c]};
      assert m[c] !in m'.Values;
    }
  }

  lemma {:induction false} SlotsSize(n: nat)
    ensures |Slots(n)| == n
  {
    if n > 0 {
      SlotsSize(n - 1);
    }
  }

  lemma SubsetSameSize(a: set<nat>, b: set<nat>)
    requires a <= b && |a| == |b|
    ensures a == b
  {
    if a != b {
      var x :| x in b && x !in a;
      assert a <= b - {x};
      assert |b - {x}| == |b| - 1;
      SubsetSize(a, b - {x});
    }
  }

  lemma {:induction false} SubsetSize(a: set<nat>, b: set<nat>)
    requires a <= b
    ensures |a| <= |b|
    decreases |b|
  {
    if a != {} {
      var x :| x in a;
      SubsetSize(a - {x}, b - {x});
    }
  }

  /** The bytes of chunk `c`'s image, or `None` when the chunk is absent or
      its image is not in the asset store. */
  function ChunkData(s: Store, assets: Assets, c: IVec2): Option<seq<byte>>
    requires Valid(s, assets)
  {
    if c in s.positions && HandleOf(s, c) in assets.images
    then Some(assets.images[HandleOf(s, c)].data)
    else None
  }

  /** Every chunk's image is in the asset store with one RGBA8 pixel per
      position of the chunk. */
  predicate ImagesSized(s: Store, assets: Assets, size: UVec2)
    requires Valid(s, assets)
  {
    forall c :: c in s.positions ==>
      HandleOf(s, c) in assets.images && |assets.images[HandleOf(s, c)].data| == 4 * Area(size)
  }

  /** The colour of world position `p`, read from bytes `4 * index .. 4 * index + 4`
      of its chunk's image (four bytes per pixel). */
  function Pixel(s: Store, assets: Assets, size: UVec2, p: IVec2): Rgba
    requires Valid(s, assets) && Positive(size) && ImagesSized(s, assets, size)
    requires Addressing.Outer(p, size) in s.positions
  {
    var d := assets.images[HandleOf(s, Addressing.Outer(p, size))].data;
    PixelBytes(d, Addressing.Index(p, size))
  }
}

=== FILE: cpu_canvas.dfy ===
/** The CPU-side canvas of src/pixel_map_cpu.rs: pixels are queued with their
    colours and, once per update, `add_pixel_map_chunks` creates the chunks
    the queue touches and writes every queued colour into its chunk's image.
    Chunk addressing is the one of src/lib.rs (module `Addressing`). */
module CpuCanvas {
  import opened Rust
  import opened Bevy
  import opened Addressing
  import opened ChunkStore

  /** `PixelMap` of src/pixel_map_cpu.rs; `store` holds `positions` and
      `img_data`. The sampler is not modelled. */
  datatype PixelMap = PixelMap(
    chunkSize: UVec2,
    store: Store,
    queuePositions: seq<IVec2>,
    queueColors: seq<Rgba>,
    emptyTexture: Image,
    root: Entity)

  /** What holds of a canvas between updates: the store is valid and every
      chunk image, like the template for new chunks, has four bytes per
      pixel of a chunk. */
  predicate Wf(pm: PixelMap, assets: Assets) {
    && Positive(pm.chunkSize)
    && Valid(pm.store, assets)
    && ImagesSized(pm.store, assets, pm.chunkSize)
    && |pm.emptyTexture.data| == 4 * Area(pm.chunkSize)
  }

  /** `PixelMap::new`: panics unless both chunk dimensions are positive; the
      default template is a chunk-sized image of transparent black. */
  function New(chunkSize: UVec2, root: Entity, emptyTexture: Option<Image>): (r: Outcome<PixelMap>)
    ensures r.Done? <==> Positive(chunkSize)
    ensures r.Done? ==>
              && r.value.store == Empty && r.value.queuePositions == [] && r.value.queueColors == []
              && r.value.chunkSize == chunkSize && r.value.root == root
              && (emptyTexture.Some? ==> r.value.emptyTexture == emptyTexture.value)
              && (emptyTexture.None? ==>
                    && r.value.emptyTexture.width == chunkSize.x && r.value.emptyTexture.height == chunkSize.y
                    && |r.value.emptyTexture.data| == 4 * Area(chunkSize)
                    && forall i :: 0 <= i < Area(chunkSize) ==> PixelBytes(r.value.emptyTexture.data, i) == [0, 0, 0, 0])
  {
    if !Positive(chunkSize) then Panicked("chunk_size.x > 0 && chunk_size.y > 0")
    else
      var empty := if emptyTexture.Some? then emptyTexture.value
                   else Image(chunkSize.x, chunkSize.y, Fill(Area(chunkSize), [0, 0, 0, 0]));
      Done(PixelMap(chunkSize, Empty, [], [], empty, root))
  }

  /** A fresh canvas built without a template is well formed over any valid
      asset store. */
  lemma NewWf(chunkSize: UVec2, root: Entity, assets: Assets)
    requires Positive(chunkSize) && assets.Valid()
    ensures Wf(New(chunkSize, root, None).value, assets)
  {
  }

  /** The queued writes, position and colour paired as the flush pairs them
      (`zip`, which stops at the shorter queue). */
  function Zip(ps: seq<IVec2>, cs: seq<Rgba>): (r: seq<(IVec2, Rgba)>)
    ensures |r| == if |ps| <= |cs| then |ps| else |cs|
    ensures forall i :: 0 <= i < |r| ==> r[i] == (ps[i], cs[i])
  {
    if ps == [] || cs == [] then [] else [(ps[0], cs[0])] + Zip(ps[1..], cs[1..])
  }

  /** Zipping two pairs of equally long queues zips them piecewise. */
  lemma ZipAppend(ps: seq<IVec2>, ps': seq<IVec2>, cs: seq<Rgba>, cs': seq<Rgba>)
    ensures |ps| == |cs| ==> Zip(ps + ps', cs + cs') == Zip(ps, cs) + Zip(ps', cs')
  {
    if |ps| == |cs| {
      var l, r := Zip(ps + ps', cs + cs'), Zip(ps, cs) + Zip(ps', cs');
      assert |l| == |r|;
      forall i | 0 <= i < |l|
        ensures l[i] == r[i]
      {
        if i >= |ps| {
          assert (ps + ps')[i] == ps'[i - |ps|] && (cs + cs')[i] == cs'[i - |ps|];
        }
      }
    }
  }

  function Pending(pm: PixelMap): seq<(IVec2, Rgba)> {
    Zip(pm.queuePositions, pm.queueColors)
  }

  /** `set_pixels`: rejects positions and colours of different lengths and
      leaves the canvas as it was; otherwise queues them, so the pending
      writes become the old ones followed by the new pairs. */
  function SetPixels(pm: PixelMap, positions: seq<IVec2>, colors: seq<Rgba>): (r: (PixelMap, Result<(), string>))
    ensures r.1.Err? <==> |positions| != |colors|
    ensures r.1.Err? ==> r.0 == pm
    ensures r.1.Ok? ==> r.0 == pm.(queuePositions := pm.queuePositions + positions, queueColors := pm.queueColors + colors)
    ensures r.0.chunkSize == pm.chunkSize && r.0.store == pm.store && r.0.emptyTexture == pm.emptyTexture
    ensures r.1.Ok? && |pm.queuePositions| == |pm.queueColors| ==>
              |r.0.queuePositions| == |r.0.queueColors| &&
              Pending(r.0) == Pending(pm) + Zip(positions, colors)
  {
    if |positions| != |colors| then (pm, Err("Mismatched lengths for pixel positions and colors."))
    else
      var r := pm.(queuePositions := pm.queuePositions + positions, queueColors := pm.queueColors + colors);
      ZipAppend(pm.queuePositions, positions, pm.queueColors, colors);
      (r, Ok(()))
  }

  /** One pass of the first loop of `add_pixel_map_chunks` for a queued
      position in chunk `c`: nothing when the chunk exists, otherwise a copy
      of the template goes into the asset store, a chunk sprite showing it is
      spawned under the root entity at the chunk's world origin, and the
      chunk takes the next slot. Recording the slot as `img_data.len() +
      new_img_data.len()` in `added_positions` and appending both after the
      loop is the same as pushing onto the store at once, since the loop
      checks both maps. */
  function CreateChunk(pm: PixelMap, w: World, c: IVec2): (r: (PixelMap, World))
    requires Valid(pm.store, w.assets)
    ensures Valid(r.0.store, r.1.assets)
    ensures r.0 == pm.(store := r.0.store)
    ensures forall d :: d in r.0.store.positions <==> d in pm.store.positions || d == c
    ensures c in pm.store.positions ==> r == (pm, w)
    ensures c !in pm.store.positions ==>
              && r.0.store.positions.Keys == pm.store.positions.Keys + {c}
              && r.0.store.positions[c] == |pm.store.images|
              && HandleOf(r.0.store, c) !in w.assets.images
              && HandleOf(r.0.store, c) in r.1.assets.images
              && r.1.assets.images[HandleOf(r.0.store, c)] == pm.emptyTexture
              && r.1.assets.images.Keys == w.assets.images.Keys + {HandleOf(r.0.store, c)}
              && r.1.sprites == w.sprites + [Sprite(HandleOf(r.0.store, c), Scale(c, pm.chunkSize), Some(pm.root))]
    ensures forall d :: d in pm.store.positions ==>
              r.0.store.positions[d] == pm.store.positions[d] && HandleOf(r.0.store, d) == HandleOf(pm.store, d)
    ensures forall h :: h in w.assets.images ==> h in r.1.assets.images && r.1.assets.images[h] == w.assets.images[h]
    ensures Grows(pm.store.images, r.0.store.images, w.assets)
  {
    if c in pm.store.positions then (pm, w) else
      var added := w.assets.AddImage(pm.emptyTexture);
      var h := added.1;
      var spawned := Spawn(World(added.0, w.sprites), Sprite(h, Scale(c, pm.chunkSize), Some(pm.root)));
      PushValid(pm.store, w.assets, c, pm.emptyTexture, added.0, h);
      (pm.(store := Push(pm.store, c, h)), spawned.0)
  }

  /** The chunks holding the positions of `ps`. */
  function ChunksOf(ps: seq<IVec2>, size: UVec2): (r: set<IVec2>)
    requires Positive(size)
    decreases |ps|
    ensures forall i :: 0 <= i < |ps| ==> Outer(ps[i], size) in r
    ensures forall d :: d in r ==> exists i :: 0 <= i < |ps| && Outer(ps[i], size) == d
  {
    if ps == [] then {} else
      var r := {Outer(ps[0], size)} + ChunksOf(ps[1..], size);
      assert forall i :: 1 <= i < |ps| ==> ps[i] == ps[1..][i - 1];
      r
  }

  /** The first loop of `add_pixel_map_chunks` over the queued positions
      `ps`: afterwards the store is valid and holds exactly the old chunks
      and the chunks of `ps`. */
  function CreateChunks(pm: PixelMap, w: World, ps: seq<IVec2>): (r: (PixelMap, World))
    requires Positive(pm.chunkSize) && Valid(pm.store, w.assets)
    decreases |ps|
    ensures Valid(r.0.store, r.1.assets)
    ensures r.0 == pm.(store := r.0.store)
    ensures r.0.store.positions.Keys == pm.store.positions.Keys + ChunksOf(ps, pm.chunkSize)
  {
    if ps == [] then (pm, w) else
      var (pm1, w1) := CreateChunk(pm, w, Outer(ps[0], pm.chunkSize));
      CreateChunks(pm1, w1, ps[1..])
  }

  /** Old chunks keep slot and handle; the image of each new chunk is a
      fresh copy of the template; old images are untouched. */
  lemma {:induction false} CreateChunksEffect(pm: PixelMap, w: World, ps: seq<IVec2>)
    requires Positive(pm.chunkSize) && Valid(pm.store, w.assets)
    decreases |ps|
    ensures var r := CreateChunks(pm, w, ps);
            && (forall d :: d in pm.store.positions ==>
                  d in r.0.store.positions && r.0.store.positions[d] == pm.store.positions[d] && HandleOf(r.0.store, d) == HandleOf(pm.store, d))
            && (forall d :: d in r.0.store.positions && d !in pm.store.positions ==>
                  HandleOf(r.0.store, d) !in w.assets.images &&
                  HandleOf(r.0.store, d) in r.1.assets.images &&
                  r.1.assets.images[HandleOf(r.0.store, d)] == pm.emptyTexture)
            && (forall h :: h in w.assets.images ==> h in r.1.assets.images && r.1.assets.images[h] == w.assets.images[h])
  {
    if ps != [] {
      var (pm1, w1) := CreateChunk(pm, w, Outer(ps[0], pm.chunkSize));
      CreateChunksEffect(pm1, w1, ps[1..]);
    }
  }

  /** The first loop adds exactly one image per new chunk to the asset
      store: the keys afterwards are the old keys and the handles of the new
      chunks. */
  lemma {:induction false} CreateChunksImages(pm: PixelMap, w: World, ps: seq<IVec2>)
    requires Positive(pm.chunkSize) && Valid(pm.store, w.assets)
    decreases |ps|
    ensures var r := CreateChunks(pm, w, ps);
            r.1.assets.images.Keys == w.assets.images.Keys + NewHandles(pm.store, r.0.store)
  {
    var r := CreateChunks(pm, w, ps);
    if ps == [] {
      assert NewHandles(pm.store, r.0.store) == {};
    } else {
      var c := Outer(ps[0], pm.chunkSize);
      var (pm1, w1) := CreateChunk(pm, w, c);
      CreateChunksImages(pm1, w1, ps[1..]);
      assert r == CreateChunks(pm1, w1, ps[1..]);
      if c !in pm.store.positions {
        var h := HandleOf(pm1.store, c);
        assert NewHandles(pm.store, r.0.store) == {h} + NewHandles(pm1.store, r.0.store) by {
          CreateChunksEffect(pm1, w1, ps[1..]);
          NewHandlesStep(pm.store, pm1.store, r.0.store, c);
        }
        UnionStep(w.assets.images.Keys, w1.assets.images.Keys, r.1.assets.images.Keys,
                  {h}, NewHandles(pm1.store, r.0.store), NewHandles(pm.store, r.0.store));
      }
    }
  }

  /** `images` extends `before` with handles new to `assets`. */
  predicate Grows(before: seq<Handle>, images: seq<Handle>, assets: Assets) {
    && |before| <= |images|
    && images[..|before|] == before
    && forall k :: |before| <= k < |images| ==> images[k] !in assets.images
  }

  lemma GrowsTransitive(a: seq<Handle>, b: seq<Handle>, c: seq<Handle>, assets: Assets, assets': Assets)
    requires Grows(a, b, assets) && Grows(b, c, assets')
    requires assets.images.Keys <= assets'.images.Keys
    ensures Grows(a, c, assets)
  {
    forall k | 0 <= k < |b|
      ensures c[k] == b[k]
    {
      assert c[k] == c[..|b|][k];
    }
    forall k | 0 <= k < |a|
      ensures c[k] == a[k]
    {
      assert b[k] == b[..|a|][k];
    }
  }

  /** The image handles of the old chunks stay a prefix of the store's
      handles, and all handles after them are new to the asset store. */
  lemma {:induction false} CreateChunksHandles(pm: PixelMap, w: World, ps: seq<IVec2>)
    requires Positive(pm.chunkSize) && Valid(pm.store, w.assets)
    decreases |ps|
    ensures Grows(pm.store.images, CreateChunks(pm, w, ps).0.store.images, w.assets)
  {
    if ps != [] {
      var (pm1, w1) := CreateChunk(pm, w, Outer(ps[0], pm.chunkSize));
      CreateChunksHandles(pm1, w1, ps[1..]);
      GrowsTransitive(pm.store.images, pm1.store.images, CreateChunks(pm1, w1, ps[1..]).0.store.images, w.assets, w1.assets);
    }
  }

  /** One pass of the second loop: the colour `col` goes into bytes
      `4 * index .. 4 * index + 4` of the image of `p`'s chunk; a position
      whose chunk does not exist is skipped. A chunk whose image is missing
      from the asset store (the `expect`) or too small for the slice
      panics. */
  function ApplyWrite(s: Store, assets: Assets, size: UVec2, p: IVec2, col: Rgba): (r: Outcome<Assets>)
    requires Positive(size) && Valid(s, assets)
    ensures ImagesSized(s, assets, size) ==> r.Done?
    ensures r.Done? ==>
              && r.value.next == assets.next && r.value.images.Keys == assets.images.Keys
              && (forall h :: h in assets.images ==> |r.value.images[h].data| == |assets.images[h].data|)
              && Valid(s, r.value)
  {
    var c := Outer(p, size);
    if c !in s.positions then Done(assets)
    else
      var h := HandleOf(s, c);
      if h !in assets.images then Panicked("Mutable access to texture data")
      else
        var img := assets.images[h];
        var ind := 4 * Index(p, size);
        if ind + 4 > |img.data| then Panicked("data[ind..ind + 4]")
        else Done(Assets(assets.images[h := img.(data := WriteRgba(img.data, ind, col))], assets.next))
  }

  /** A single write changes the colour of its own position and of no other
      position of any existing chunk. */
  lemma ApplyWritePixel(s: Store, assets: Assets, size: UVec2, p: IVec2, col: Rgba, q: IVec2)
    requires Positive(size) && Valid(s, assets) && ImagesSized(s, assets, size)
    requires Outer(q, size) in s.positions
    ensures ImagesSized(s, ApplyWrite(s, assets, size, p, col).value, size)
    ensures Pixel(s, ApplyWrite(s, assets, size, p, col).value, size, q) ==
            if q == p then col else Pixel(s, assets, size, q)
  {
    var after := ApplyWrite(s, assets, size, p, col).value;
    var c, d := Outer(p, size), Outer(q, size);
    if c in s.positions {
      var h := HandleOf(s, c);
      var data := assets.images[h].data;
      if d != c {
        HandleInjective(s, assets, c, d);
      } else if q != p {
        if Index(q, size) == Index(p, size) {
          IndexInjective(p, q, size);
        }
        WriteRgbaOtherPixel(data, Index(p, size), Index(q, size), col);
      }
    }
  }

  /** The second loop of `add_pixel_map_chunks`: the writes applied in queue
      order. */
  function ApplyWrites(s: Store, assets: Assets, size: UVec2, writes: seq<(IVec2, Rgba)>): (r: Outcome<Assets>)
    requires Positive(size) && Valid(s, assets)
    decreases |writes|
    ensures r.Done? ==> Valid(s, r.value) && r.value.images.Keys == assets.images.Keys
  {
    if writes == [] then Done(assets) else
      match ApplyWrites(s, assets, size, writes[..|writes| - 1])
      case Panicked(site) => Panicked(site)
      case Done(a) => ApplyWrite(s, a, size, writes[|writes| - 1].0, writes[|writes| - 1].1)
  }

  /** The colour of the last write to `q`, if any: an independent statement
      of "the last write wins". */
  function LastWrite(writes: seq<(IVec2, Rgba)>, q: IVec2): (r: Option<Rgba>)
    decreases |writes|
    ensures r.None? <==> forall i :: 0 <= i < |writes| ==> writes[i].0 != q
    ensures r.Some? ==> exists i :: 0 <= i < |writes| && writes[i] == (q, r.value) &&
                                    forall j :: i < j < |writes| ==> writes[j].0 != q
  {
    if writes == [] then None
    else if writes[|writes| - 1].0 == q then Some(writes[|writes| - 1].1)
    else
      var r := LastWrite(writes[..|writes| - 1], q);
      assert forall i :: 0 <= i < |writes| - 1 ==> writes[..|writes| - 1][i] == writes[i];
      r
  }

  /** The writes never panic on a store whose images are chunk-sized; every
      position of an existing chunk then shows its last queued colour, or its
      old colour when none was queued for it; images outside the store are
      untouched. */
  lemma {:induction false} ApplyWritesEffect(s: Store, assets: Assets, size: UVec2, writes: seq<(IVec2, Rgba)>)
    requires Positive(size) && Valid(s, assets) && ImagesSized(s, assets, size)
    decreases |writes|
    ensures ApplyWrites(s, assets, size, writes).Done?
    ensures ImagesSized(s, ApplyWrites(s, assets, size, writes).value, size)
    ensures forall q :: Outer(q, size) in s.positions ==>
              Pixel(s, ApplyWrites(s, assets, size, writes).value, size, q) ==
              match LastWrite(writes, q) case Some(col) => col case None => Pixel(s, assets, size, q)
    ensures forall h :: h in assets.images && h !in s.images ==>
              ApplyWrites(s, assets, size, writes).value.images[h] == assets.images[h]
  {
    if writes != [] {
      var front := writes[..|writes| - 1];
      var (p, col) := writes[|writes| - 1];
      ApplyWritesEffect(s, assets, size, front);
      var a := ApplyWrites(s, assets, size, front).value;
      forall q | Outer(q, size) in s.positions
        ensures Pixel(s, ApplyWrite(s, a, size, p, col).value, size, q) ==
                match LastWrite(writes, q) case Some(col) => col case None => Pixel(s, assets, size, q)
      {
        ApplyWritePixel(s, a, size, p, col, q);
      }
      if Outer(p, size) in s.positions {
        ApplyWritePixel(s, a, size, p, col, p);
      }
      forall h | h in assets.images && h !in s.images
        ensures ApplyWrite(s, a, size, p, col).value.images[h] == assets.images[h]
      {
        if Outer(p, size) in s.positions {
          assert HandleOf(s, Outer(p, size)) in s.images;
        }
      }
    }
  }

  /** `add_pixel_map_chunks` for one canvas: create the chunks, apply the
      writes, empty both queues. */
  function Flush(pm: PixelMap, w: World): (r: Outcome<(PixelMap, World)>)
    requires Positive(pm.chunkSize) && Valid(pm.store, w.assets)
    ensures r.Done? ==>
              && Valid(r.value.0.store, r.value.1.assets)
              && r.value.0.queuePositions == [] && r.value.0.queueColors == []
              && r.value.0.store.positions.Keys == pm.store.positions.Keys + ChunksOf(pm.queuePositions, pm.chunkSize)
  {
    var (pm1, w1) := CreateChunks(pm, w, pm.queuePositions);
    match ApplyWrites(pm1.store, w1.assets, pm.chunkSize, Pending(pm))
    case Panicked(site) => Panicked(site)
    case Done(a) => Done((pm1.(queuePositions := [], queueColors := []), World(a, w1.sprites)))
  }

  /** An update on a well-formed canvas does not panic and leaves it well
      formed with both queues empty. Its chunks are the old ones and those of
      the queued positions, old chunks keeping slot and handle. Every pixel
      of every chunk shows the last colour queued for it; unqueued pixels
      keep their colour in old chunks and show the template in new ones.
      Images outside the canvas are untouched. */
  lemma FlushEffect(pm: PixelMap, w: World)
    requires Wf(pm, w.assets)
    ensures Flush(pm, w).Done?
    ensures var (pm', w') := Flush(pm, w).value;
            && Wf(pm', w'.assets)
            && pm'.queuePositions == [] && pm'.queueColors == []
            && pm'.chunkSize == pm.chunkSize && pm'.emptyTexture == pm.emptyTexture && pm'.root == pm.root
            && pm'.store.positions.Keys == pm.store.positions.Keys + ChunksOf(pm.queuePositions, pm.chunkSize)
            && (forall d :: d in pm.store.positions ==>
                  pm'.store.positions[d] == pm.store.positions[d] && HandleOf(pm'.store, d) == HandleOf(pm.store, d))
            && (forall q :: Outer(q, pm.chunkSize) in pm'.store.positions ==>
                  Pixel(pm'.store, w'.assets, pm.chunkSize, q) ==
                  match LastWrite(Pending(pm), q)
                  case Some(col) => col
                  case None =>
                    if Outer(q, pm.chunkSize) in pm.store.positions then Pixel(pm.store, w.assets, pm.chunkSize, q)
                    else PixelBytes(pm.emptyTexture.data, Index(q, pm.chunkSize)))
            && (forall h :: h in w.assets.images && h !in pm.store.images ==>
                  h in w'.assets.images && w'.assets.images[h] == w.assets.images[h])
  {
    var size := pm.chunkSize;
    var (pm1, w1) := CreateChunks(pm, w, pm.queuePositions);
    CreateChunksEffect(pm, w, pm.queuePositions);
    CreateChunksHandles(pm, w, pm.queuePositions);
    var s := pm1.store;
    assert ImagesSized(s, w1.assets, size);
    ApplyWritesEffect(s, w1.assets, size, Pending(pm));
    var a := ApplyWrites(s, w1.assets, size, Pending(pm)).value;
    forall q | Outer(q, size) in s.positions && Outer(q, size) in pm.store.positions
      ensures Pixel(s, w1.assets, size, q) == Pixel(pm.store, w.assets, size, q)
    {
    }
    forall k | 0 <= k < |s.images|
      ensures s.images[k] in pm.store.images || s.images[k] !in w.assets.images
    {
      if k < |pm.store.images| {
        assert s.images[k] == s.images[..|pm.store.images|][k];
      }
    }
  }
}

=== FILE: legacy_canvas.dfy ===
/** The older canvas of src/pixel_map.rs: whole chunks are queued by
    coordinate, each with an optional image, and once per update every queued
    chunk that does not exist yet gets a sprite. Removal is only ever queued. */
module LegacyCanvas {
  import opened Rust
  import opened Bevy
  import ChunkStore

  /** `PixelMap` of src/pixel_map.rs: `chunks` maps a chunk coordinate to
      the entity of its sprite. */
  datatype PixelMap = PixelMap(
    chunkSize: UVec2,
    chunks: map<IVec2, Entity>,
    addQueue: map<IVec2, Option<Image>>,
    removeQueue: seq<IVec2>,
    emptyTexture: Image,
    pixelsPerUnit: nat)

  /** The colour of every pixel of the default template: opaque-ish red. */
  const Placeholder: Rgba := [255, 0, 0, 128]

  /** `PixelMap::new`: panics unless both chunk dimensions are positive
      (width checked first); the default template is `x * y` pixels of
      `Placeholder`, four bytes each. */
  function New(chunkSize: UVec2, pixelsPerUnit: nat, emptyTexture: Option<Image>): (r: Outcome<PixelMap>)
    ensures r.Done? <==> Positive(chunkSize)
    ensures chunkSize.x == 0 ==> r == Panicked("chunk_size.x > 0")
    ensures r.Done? ==>
              && r.value.chunks == map[] && r.value.addQueue == map[] && r.value.removeQueue == []
              && r.value.chunkSize == chunkSize && r.value.pixelsPerUnit == pixelsPerUnit
              && (emptyTexture.Some? ==> r.value.emptyTexture == emptyTexture.value)
              && (emptyTexture.None? ==>
                    && r.value.emptyTexture.width == chunkSize.x && r.value.emptyTexture.height == chunkSize.y
                    && |r.value.emptyTexture.data| == 4 * Area(chunkSize)
                    && forall i :: 0 <= i < Area(chunkSize) ==> PixelBytes(r.value.emptyTexture.data, i) == Placeholder)
  {
    if chunkSize.x == 0 then Panicked("chunk_size.x > 0")
    else if chunkSize.y == 0 then Panicked("chunk_size.y > 0")
    else
      var empty := match emptyTexture
                   case Some(x) => x
                   case None => Image(chunkSize.x, chunkSize.y, Fill(Area(chunkSize), Placeholder));
      Done(PixelMap(chunkSize, map[], map[], [], empty, pixelsPerUnit))
  }

  /** `add_chunk`: queues chunk `c` with image `tex`, replacing an earlier
      request for the same chunk; nothing else changes. */
  function AddChunk(pm: PixelMap, c: IVec2, tex: Option<Image>): (r: PixelMap)
    ensures r.addQueue.Keys == pm.addQueue.Keys + {c} && r.addQueue[c] == tex
    ensures forall d :: d in pm.addQueue && d != c ==> r.addQueue[d] == pm.addQueue[d]
    ensures r == pm.(addQueue := r.addQueue)
  {
    pm.(addQueue := pm.addQueue[c := tex])
  }

  /** Queuing the same chunk twice keeps only the later image. */
  lemma AddChunkLastWins(pm: PixelMap, c: IVec2, first: Option<Image>, second: Option<Image>)
    ensures AddChunk(AddChunk(pm, c, first), c, second) == AddChunk(pm, c, second)
  {
    assert AddChunk(AddChunk(pm, c, first), c, second).addQueue == AddChunk(pm, c, second).addQueue;
  }

  /** Requests for different chunks do not interfere: their order does not
      matter. */
  lemma AddChunkCommutes(pm: PixelMap, c: IVec2, d: IVec2, t: Option<Image>, u: Option<Image>)
    requires c != d
    ensures AddChunk(AddChunk(pm, c, t), d, u) == AddChunk(AddChunk(pm, d, u), c, t)
  {
    assert AddChunk(AddChunk(pm, c, t), d, u).addQueue == AddChunk(AddChunk(pm, d, u), c, t).addQueue;
  }

  /** `remove_chunk`: appends `c` to the removal queue and does nothing
      else; in particular the chunk stays. */
  function RemoveChunk(pm: PixelMap, c: IVec2): (r: PixelMap)
    ensures r.chunks == pm.chunks && r.addQueue == pm.addQueue
    ensures |r.removeQueue| == |pm.removeQueue| + 1
    ensures r.removeQueue[..|pm.removeQueue|] == pm.removeQueue && r.removeQueue[|pm.removeQueue|] == c
    ensures r == pm.(removeQueue := r.removeQueue)
  {
    pm.(removeQueue := pm.removeQueue + [c])
  }

  /** World position of chunk `c`'s sprite: `c * chunk_size * pixels_per_unit`. */
  function Origin(pm: PixelMap, c: IVec2): IVec2 {
    IVec2(c.x * pm.chunkSize.x * pm.pixelsPerUnit, c.y * pm.chunkSize.y * pm.pixelsPerUnit)
  }

  /** The image a new chunk is shown with: the queued one, or the template. */
  function TextureFor(pm: PixelMap, tex: Option<Image>): Image {
    match tex
    case Some(x) => x
    case None => pm.emptyTexture
  }

  /** Entity `e` is a sprite at chunk `c`'s origin, without a parent,
      showing an image of the asset store equal to `img`. */
  predicate ShowsChunk(pm: PixelMap, w: World, c: IVec2, e: Entity, img: Image) {
    && e < |w.sprites|
    && w.sprites[e].translation == Origin(pm, c)
    && w.sprites[e].parent == None
    && w.sprites[e].image in w.assets.images
    && w.assets.images[w.sprites[e].image] == img
  }

  /** The loop of `add_pixel_map_chunks` over the add queue in `order`: every
      listed chunk that does not exist gets its image added to the asset
      store and a sprite, recorded in `to_add`. */
  function SpawnChunks(pm: PixelMap, w: World, order: seq<IVec2>): (r: (map<IVec2, Entity>, World))
    requires w.assets.Valid()
    requires forall i :: 0 <= i < |order| ==> order[i] in pm.addQueue
    decreases |order|
    ensures r.1.assets.Valid()
    ensures forall c :: c in r.0 <==> c in order && c !in pm.chunks
    ensures |w.sprites| <= |r.1.sprites| && r.1.sprites[..|w.sprites|] == w.sprites
    ensures forall h :: h in w.assets.images ==> h in r.1.assets.images && r.1.assets.images[h] == w.assets.images[h]
  {
    if order == [] then (map[], w) else
      var rest := SpawnChunks(pm, w, order[..|order| - 1]);
      var c := order[|order| - 1];
      if c in pm.chunks then rest
      else
        var added := rest.1.assets.AddImage(TextureFor(pm, pm.addQueue[c]));
        var spawned := Spawn(World(added.0, rest.1.sprites), Sprite(added.1, Origin(pm, c), None));
        assert spawned.0.sprites[..|w.sprites|] == rest.1.sprites[..|w.sprites|];
        (rest.0[c := spawned.1], spawned.0)
  }

  /** Every chunk the loop records has a freshly spawned sprite at its
      origin showing the queued image, or the template when none was
      queued. */
  lemma {:induction false} SpawnChunksShows(pm: PixelMap, w: World, order: seq<IVec2>)
    requires w.assets.Valid()
    requires forall i :: 0 <= i < |order| ==> order[i] in pm.addQueue
    decreases |order|
    ensures var (toAdd, w') := SpawnChunks(pm, w, order);
            forall c :: c in toAdd ==>
              toAdd[c] >= |w.sprites| && ShowsChunk(pm, w', c, toAdd[c], TextureFor(pm, pm.addQueue[c]))
  {
    if order != [] {
      var front := order[..|order| - 1];
      SpawnChunksShows(pm, w, front);
      var rest := SpawnChunks(pm, w, front);
      var (toAdd, w') := SpawnChunks(pm, w, order);
      forall c | c in rest.0
        ensures ShowsChunk(pm, w', c, rest.0[c], TextureFor(pm, pm.addQueue[c]))
      {
        var e := rest.0[c];
        assert w'.sprites[e] == w'.sprites[..|rest.1.sprites|][e];
      }
    }
  }

  /** The images shown by the sprites `w'` spawned after those of `w`. */
  function NewImages(w: World, w': World): set<Handle>
    requires |w.sprites| <= |w'.sprites|
  {
    set e: nat | |w.sprites| <= e < |w'.sprites| :: w'.sprites[e].image
  }

  /** Spawning one more sprite adds the image it shows. */
  lemma NewImagesSnoc(w: World, sprites: seq<Sprite>, s: Sprite)
    requires |w.sprites| <= |sprites|
    ensures NewImages(w, World(w.assets, sprites + [s])) == NewImages(w, World(w.assets, sprites)) + {s.image}
  {
    var w1 := World(w.assets, sprites);
    var w2 := World(w.assets, sprites + [s]);
    forall g | g in NewImages(w, w2)
      ensures g in NewImages(w, w1) + {s.image}
    {
      var e: nat :| |w.sprites| <= e < |w2.sprites| && w2.sprites[e].image == g;
      if e < |sprites| {
        assert w1.sprites[e] == w2.sprites[e];
      }
    }
    forall g | g in NewImages(w, w1)
      ensures g in NewImages(w, w2)
    {
      var e: nat :| |w.sprites| <= e < |w1.sprites| && w1.sprites[e].image == g;
      assert w2.sprites[e] == w1.sprites[e];
    }
    assert w2.sprites[|sprites|] == s;
  }

  /** With each queued chunk visited once, as the keys of a hash map are,
      the loop spawns one sprite per chunk it records: the recorded entities
      are distinct and are exactly the new sprites' indices. */
  lemma {:induction false} SpawnChunksEntities(pm: PixelMap, w: World, order: seq<IVec2>)
    requires w.assets.Valid()
    requires forall i :: 0 <= i < |order| ==> order[i] in pm.addQueue
    requires forall i, j :: 0 <= i < j < |order| ==> order[i] != order[j]
    decreases |order|
    ensures var (toAdd, w') := SpawnChunks(pm, w, order);
            && |w'.sprites| == |w.sprites| + |toAdd|
            && (forall c :: c in toAdd ==> |w.sprites| <= toAdd[c] < |w'.sprites|)
            && (forall c, d :: c in toAdd && d in toAdd && c != d ==> toAdd[c] != toAdd[d])
  {
    if order != [] {
      var front := order[..|order| - 1];
      var c := order[|order| - 1];
      var rest := SpawnChunks(pm, w, front);
      SpawnChunksEntities(pm, w, front);
      if c !in pm.chunks {
        assert c !in front;
        assert c !in rest.0;
      }
    }
  }

  /** The loop adds one image per sprite it spawns: the asset store gains
      exactly the images the new sprites show. */
  lemma {:induction false} SpawnChunksImages(pm: PixelMap, w: World, order: seq<IVec2>)
    requires w.assets.Valid()
    requires forall i :: 0 <= i < |order| ==> order[i] in pm.addQueue
    decreases |order|
    ensures var (toAdd, w') := SpawnChunks(pm, w, order);
            w'.assets.images.Keys == w.assets.images.Keys + NewImages(w, w')
  {
    var (toAdd, w') := SpawnChunks(pm, w, order);
    if order == [] {
      assert NewImages(w, w') == {};
    } else {
      var front := order[..|order| - 1];
      var c := order[|order| - 1];
      var rest := SpawnChunks(pm, w, front);
      SpawnChunksImages(pm, w, front);
      if c !in pm.chunks {
        var sprite := w'.sprites[|rest.1.sprites|];
        assert w'.sprites == rest.1.sprites + [sprite];
        NewImagesSnoc(w, rest.1.sprites, sprite);
        ChunkStore.UnionStep(w.assets.images.Keys, rest.1.assets.images.Keys, w'.assets.images.Keys,
                             NewImages(w, rest.1), {sprite.image}, NewImages(w, w'));
      }
    }
  }

  /** `add_pixel_map_chunks` for one canvas, `order` being the add queue's
      iteration order: spawn the new chunks, record them, empty the add
      queue. */
  function Process(pm: PixelMap, w: World, order: seq<IVec2>): (r: (PixelMap, World))
    requires w.assets.Valid()
    requires Enumerates(order, pm.addQueue.Keys)
    ensures r.0.chunks.Keys == pm.chunks.Keys + pm.addQueue.Keys && r.0.addQueue == map[]
    ensures r.0 == pm.(chunks := r.0.chunks, addQueue := map[])
  {
    var (toAdd, w') := SpawnChunks(pm, w, order);
    (pm.(chunks := pm.chunks + toAdd, addQueue := map[]), w')
  }

  /** An update never replaces or drops a chunk: afterwards the chunks are
      the old ones, with their old sprites, plus every queued chunk, each new
      one shown by a freshly spawned sprite at its origin with the queued
      image or the template. The add queue is empty, the removal queue and
      the old assets untouched. */
  lemma ProcessEffect(pm: PixelMap, w: World, order: seq<IVec2>)
    requires w.assets.Valid()
    requires Enumerates(order, pm.addQueue.Keys)
    ensures var (pm', w') := Process(pm, w, order);
            && pm'.chunks.Keys == pm.chunks.Keys + pm.addQueue.Keys
            && (forall c :: c in pm.chunks ==> pm'.chunks[c] == pm.chunks[c])
            && (forall c :: c in pm'.chunks && c !in pm.chunks ==>
                  pm'.chunks[c] >= |w.sprites| &&
                  ShowsChunk(pm, w', c, pm'.chunks[c], TextureFor(pm, pm.addQueue[c])))
            && pm'.addQueue == map[]
            && pm'.removeQueue == pm.removeQueue
            && pm'.chunkSize == pm.chunkSize && pm'.emptyTexture == pm.emptyTexture && pm'.pixelsPerUnit == pm.pixelsPerUnit
            && w'.assets.Valid()
            && w'.sprites[..|w.sprites|] == w.sprites
            && |w'.sprites| == |w.sprites| + |pm.addQueue.Keys - pm.chunks.Keys|
            && (forall c, d :: c in pm'.chunks && d in pm'.chunks && c !in pm.chunks && d !in pm.chunks && c != d ==>
                  pm'.chunks[c] != pm'.chunks[d])
            && (forall h :: h in w.assets.images ==> h in w'.assets.images && w'.assets.images[h] == w.assets.images[h])
            && w'.assets.images.Keys == w.assets.images.Keys + NewImages(w, w')
  {
    SpawnChunksShows(pm, w, order);
    SpawnChunksEntities(pm, w, order);
    SpawnChunksImages(pm, w, order);
    var toAdd := SpawnChunks(pm, w, order).0;
    assert toAdd.Keys == pm.addQueue.Keys - pm.chunks.Keys;
  }
}

=== FILE: overlap.dfy ===
/** `prepare_chunks` of src/lib.rs: once per frame the stamp queue is turned
    into the overlap table `texture_to_chunk_posses`, which lists for each
    chunk coordinate the queued stamps that may touch it; every listed chunk
    is then created and the queue emptied. */
module Overlap {
  import opened Rust
  import opened Bevy
  import Addressing
  import Rect
  import opened ChunkStore
  import opened Canvas

  /** The chunks a stamp is distributed to: `IRect { min: start - 1, max: end + 1 }.points()`
      with `start` the chunk of its corner and `end` the chunk of
      `position + size`. Because `max` is exclusive the padding is one chunk
      below `start` and none beyond `end`. */
  function Footprint(s: Stamp, size: UVec2): (r: seq<IVec2>)
    requires Positive(size)
    ensures var start := Addressing.Outer(s.position, size);
            var end := Addressing.Outer(AddSize(s.position, s.size), size);
            forall i :: 0 <= i < |r| ==> start.x - 1 <= r[i].x <= end.x && start.y - 1 <= r[i].y <= end.y
  {
    var start := Addressing.Outer(s.position, size);
    var end := Addressing.Outer(AddSize(s.position, s.size), size);
    Rect.Points(Shift(start, -1), Shift(end, 1))
  }

  /** A chunk is in a stamp's footprint exactly when each of its coordinates
      lies between `start - 1` and `end`, inclusive. */
  lemma FootprintMembership(s: Stamp, size: UVec2, c: IVec2)
    requires Positive(size)
    ensures var start := Addressing.Outer(s.position, size);
            var end := Addressing.Outer(AddSize(s.position, s.size), size);
            c in Footprint(s, size) <==>
              start.x - 1 <= c.x <= end.x && start.y - 1 <= c.y <= end.y
  {
    var start := Addressing.Outer(s.position, size);
    var end := Addressing.Outer(AddSize(s.position, s.size), size);
    Rect.PointsMembership(Shift(start, -1), Shift(end, 1), c);
  }

  /** A footprint spans `end - start + 2` chunks along each axis. */
  lemma FootprintLength(s: Stamp, size: UVec2)
    requires Positive(size)
    ensures var start := Addressing.Outer(s.position, size);
            var end := Addressing.Outer(AddSize(s.position, s.size), size);
            |Footprint(s, size)| == (end.x - start.x + 2) * (end.y - start.y + 2)
  {
    var start := Addressing.Outer(s.position, size);
    var end := Addressing.Outer(AddSize(s.position, s.size), size);
    Addressing.FloorDivMonotone(s.position.x, s.position.x + s.size.x, size.x);
    Addressing.FloorDivMonotone(s.position.y, s.position.y + s.size.y, size.y);
    Rect.PointsLength(Shift(start, -1), Shift(end, 1));
  }

  /** No chunk is listed twice in a footprint. */
  lemma FootprintDistinct(s: Stamp, size: UVec2)
    requires Positive(size)
    ensures forall i, j :: 0 <= i < j < |Footprint(s, size)| ==> Footprint(s, size)[i] != Footprint(s, size)[j]
  {
    var start := Addressing.Outer(s.position, size);
    var end := Addressing.Outer(AddSize(s.position, s.size), size);
    Rect.PointsIncreasing(Shift(start, -1), Shift(end, 1));
    Rect.IncreasingDistinct(Footprint(s, size));
  }

  /** Every chunk that holds a pixel of the stamp is in its footprint, so the
      padding never drops a chunk the stamp draws on. */
  lemma FootprintCoversStamp(s: Stamp, size: UVec2, p: IVec2)
    requires Positive(size)
    requires Rect.InRect(p, s.position, AddSize(s.position, s.size))
    ensures Addressing.Outer(p, size) in Footprint(s, size)
  {
    var q := AddSize(s.position, s.size);
    Addressing.FloorDivMonotone(s.position.x, p.x, size.x);
    Addressing.FloorDivMonotone(s.position.y, p.y, size.y);
    Addressing.FloorDivMonotone(p.x, q.x, size.x);
    Addressing.FloorDivMonotone(p.y, q.y, size.y);
    FootprintMembership(s, size, Addressing.Outer(p, size));
  }

  /** A 5x5 stamp at (10, 10) on 100x100 chunks lies inside chunk (0, 0); it
      is distributed to that chunk and its three neighbours below and to the
      left, four chunks in all. */
  lemma FootprintExample(s: Stamp, size: UVec2, c: IVec2)
    requires s == Stamp(IVec2(10, 10), 0, UVec2(5, 5)) && size == UVec2(100, 100)
    ensures |Footprint(s, size)| == 4
    ensures c in Footprint(s, size) <==> -1 <= c.x <= 0 && -1 <= c.y <= 0
  {
    var start := Addressing.Outer(s.position, size);
    var end := Addressing.Outer(AddSize(s.position, s.size), size);
    Addressing.OuterCharacterization(s.position, size, IVec2(0, 0));
    Addressing.OuterCharacterization(AddSize(s.position, s.size), size, IVec2(0, 0));
    assert start == IVec2(0, 0) && end == IVec2(0, 0);
    FootprintLength(s, size);
    assert |Footprint(s, size)| == (end.x - start.x + 2) * (end.y - start.y + 2);
    FootprintMembership(s, size, c);
  }

  /** A bucket of the overlap table; a missing key is an empty bucket. */
  function Lookup(m: map<IVec2, seq<Stamp>>, c: IVec2): seq<Stamp> {
    if c in m then m[c] else []
  }

  /** The inner loop of `prepare_chunks`: push `s` onto the bucket of each
      chunk of `cs`, creating the bucket when it is missing. */
  function AppendToAll(m: map<IVec2, seq<Stamp>>, cs: seq<IVec2>, s: Stamp): (r: map<IVec2, seq<Stamp>>)
    decreases |cs|
    ensures forall c :: c in r <==> c in m || c in cs
  {
    if cs == [] then m else AppendToAll(m[cs[0] := Lookup(m, cs[0]) + [s]], cs[1..], s)
  }

  /** With no chunk listed twice, each listed bucket gains `s` once at its end
      and every other bucket is unchanged. */
  lemma {:induction false} AppendToAllBuckets(m: map<IVec2, seq<Stamp>>, cs: seq<IVec2>, s: Stamp, c: IVec2)
    requires forall i, j :: 0 <= i < j < |cs| ==> cs[i] != cs[j]
    decreases |cs|
    ensures Lookup(AppendToAll(m, cs, s), c) == Lookup(m, c) + (if c in cs then [s] else [])
  {
    if cs != [] {
      var m1 := m[cs[0] := Lookup(m, cs[0]) + [s]];
      AppendToAllBuckets(m1, cs[1..], s, c);
      if c == cs[0] {
        assert c !in cs[1..];
      } else {
        assert c in cs <==> c in cs[1..];
      }
    }
  }

  /** The reference for a bucket: the stamps of queue `q` whose footprint
      contains chunk `c`, in queue order, each queue entry once. */
  function Covering(q: seq<Stamp>, size: UVec2, c: IVec2): seq<Stamp>
    requires Positive(size)
    decreases |q|
  {
    if q == [] then [] else
      Covering(q[..|q| - 1], size, c) + (if c in Footprint(q[|q| - 1], size) then [q[|q| - 1]] else [])
  }

  /** The outer loop of `prepare_chunks`: each queued stamp, in order, is
      pushed onto the bucket of every chunk of its footprint. */
  function Distribute(q: seq<Stamp>, size: UVec2): (r: map<IVec2, seq<Stamp>>)
    requires Positive(size)
    decreases |q|
    ensures forall c :: c in r <==> Touched(q, size, c)
  {
    if q == [] then map[] else
      var front := q[..|q| - 1];
      var last := q[|q| - 1];
      var r := AppendToAll(Distribute(front, size), Footprint(last, size), last);
      assert forall c :: c in r <==> Touched(q, size, c) by {
        forall c | Touched(front, size, c)
          ensures Touched(q, size, c)
        {
          var i :| 0 <= i < |front| && c in Footprint(front[i], size);
          assert q[i] == front[i];
        }
        forall c | Touched(q, size, c)
          ensures c in r
        {
          var i :| 0 <= i < |q| && c in Footprint(q[i], size);
          if i < |front| {
            assert front[i] == q[i];
          }
        }
      }
      r
  }

  /** Some queued stamp's footprint contains chunk `c`. */
  predicate Touched(q: seq<Stamp>, size: UVec2, c: IVec2)
    requires Positive(size)
  {
    exists i :: 0 <= i < |q| && c in Footprint(q[i], size)
  }

  /** A chunk's reference bucket is non-empty exactly when some stamp
      touches it. */
  lemma {:induction false} CoveringNonEmpty(q: seq<Stamp>, size: UVec2, c: IVec2)
    requires Positive(size)
    decreases |q|
    ensures Covering(q, size, c) != [] <==> Touched(q, size, c)
  {
    if q != [] {
      var front := q[..|q| - 1];
      CoveringNonEmpty(front, size, c);
      if Touched(front, size, c) {
        var i :| 0 <= i < |front| && c in Footprint(front[i], size);
        assert q[i] == front[i];
      }
      if Touched(q, size, c) {
        var i :| 0 <= i < |q| && c in Footprint(q[i], size);
        if i < |front| {
          assert front[i] == q[i];
        }
      }
    }
  }

  /** Every bucket of the overlap table lists exactly the stamps covering its
      chunk, in queue order and without repeats, and a chunk has a bucket
      exactly when that list is non-empty. */
  lemma {:induction false} DistributeBuckets(q: seq<Stamp>, size: UVec2, c: IVec2)
    requires Positive(size)
    decreases |q|
    ensures Lookup(Distribute(q, size), c) == Covering(q, size, c)
    ensures c in Distribute(q, size) <==> Covering(q, size, c) != []
  {
    if q != [] {
      var front := q[..|q| - 1];
      var last := q[|q| - 1];
      DistributeBuckets(front, size, c);
      FootprintDistinct(last, size);
      AppendToAllBuckets(Distribute(front, size), Footprint(last, size), last, c);
    }
  }

  /** The overlap table has a bucket for chunk `c` exactly when some queued
      stamp touches it, and that bucket is the stamps covering `c`. */
  lemma DistributeSpec(q: seq<Stamp>, size: UVec2)
    requires Positive(size)
    ensures forall c :: Lookup(Distribute(q, size), c) == Covering(q, size, c)
    ensures forall c :: c in Distribute(q, size) <==> Touched(q, size, c)
  {
    forall c
      ensures Lookup(Distribute(q, size), c) == Covering(q, size, c)
      ensures c in Distribute(q, size) <==> Touched(q, size, c)
    {
      DistributeBuckets(q, size, c);
      CoveringNonEmpty(q, size, c);
    }
  }

  /** `prepare_chunks`. `order` is the order in which the table's keys are
      visited when the chunks are created. Afterwards every bucket's chunk
      exists, existing chunks keep their slot and image, the table is
      replaced by this frame's buckets and the stamp queue is empty. */
  function PrepareChunks(pm: PixelMap, w: World, order: seq<IVec2>): (r: (PixelMap, World))
    requires Positive(pm.chunkSize) && Valid(pm.store, w.assets)
    requires Enumerates(order, Distribute(pm.textureQueue, pm.chunkSize).Keys)
    ensures Valid(r.0.store, r.1.assets)
    ensures r.0.textureQueue == []
    ensures forall c :: Lookup(r.0.buckets, c) == Covering(pm.textureQueue, pm.chunkSize, c)
    ensures forall c :: c in r.0.buckets <==> Touched(pm.textureQueue, pm.chunkSize, c)
    ensures forall c :: c in r.0.buckets ==> c in r.0.store.positions
    ensures forall c :: c in r.0.store.positions <==> c in pm.store.positions || c in r.0.buckets
    ensures forall d :: d in pm.store.positions ==>
              r.0.store.positions[d] == pm.store.positions[d] && HandleOf(r.0.store, d) == HandleOf(pm.store, d)
    ensures r.0 == pm.(store := r.0.store, buckets := r.0.buckets, textureQueue := [])
  {
    var buckets := Distribute(pm.textureQueue, pm.chunkSize);
    var added := AddChunks(pm, w, order);
    DistributeSpec(pm.textureQueue, pm.chunkSize);
    (added.0.(buckets := buckets, textureQueue := []), added.1)
  }
}

=== FILE: rect.dfy ===
/** `IRect::points` (src/lib.rs): the integer points of a rectangle whose
    `min` corner is included and whose `max` corner is excluded, listed
    column by column (outer loop over x, inner loop over y). */
module Rect {
  import opened Bevy

  predicate InRect(p: IVec2, min: IVec2, max: IVec2) {
    min.x <= p.x < max.x && min.y <= p.y < max.y
  }

  /** Strictly increasing in (x, y) lexicographic order. */
  predicate Before(a: IVec2, b: IVec2) {
    a.x < b.x || (a.x == b.x && a.y < b.y)
  }

  predicate Increasing(ps: seq<IVec2>) {
    forall i, j :: 0 <= i < j < |ps| ==> Before(ps[i], ps[j])
  }

  /** The inner loop: `for y in lo..hi { push((x, y)) }`. */
  function Column(x: int, lo: int, hi: int): (ps: seq<IVec2>)
    decreases hi - lo
    ensures |ps| == if lo < hi then hi - lo else 0
    ensures forall i :: 0 <= i < |ps| ==> ps[i] == IVec2(x, lo + i)
  {
    if lo >= hi then [] else [IVec2(x, lo)] + Column(x, lo + 1, hi)
  }

  /** `IRect { min, max }.points()`: every point listed lies in the
      half-open rectangle. */
  function Points(min: IVec2, max: IVec2): (ps: seq<IVec2>)
    decreases max.x - min.x
    ensures forall i :: 0 <= i < |ps| ==> InRect(ps[i], min, max)
  {
    if min.x >= max.x then [] else
      Column(min.x, min.y, max.y) + Points(IVec2(min.x + 1, min.y), max)
  }

  /** A point is listed exactly when it lies in the half-open rectangle. */
  lemma {:induction false} PointsMembership(min: IVec2, max: IVec2, p: IVec2)
    decreases max.x - min.x
    ensures p in Points(min, max) <==> InRect(p, min, max)
  {
    if min.x < max.x {
      var col := Column(min.x, min.y, max.y);
      var next := IVec2(min.x + 1, min.y);
      PointsMembership(next, max, p);
      if p.x == min.x && min.y <= p.y < max.y {
        assert col[p.y - min.y] == p;
      }
    }
  }

  /** The points come in strictly increasing column-major order, so none is
      listed twice. */
  lemma {:induction false} PointsIncreasing(min: IVec2, max: IVec2)
    decreases max.x - min.x
    ensures Increasing(Points(min, max))
  {
    if min.x < max.x {
      var col := Column(min.x, min.y, max.y);
      var next := IVec2(min.x + 1, min.y);
      var rest := Points(next, max);
      PointsIncreasing(next, max);
      forall k | 0 <= k < |rest|
        ensures rest[k].x > min.x
      {
        PointsMembership(next, max, rest[k]);
      }
      var ps := col + rest;
      forall i, j | 0 <= i < j < |ps|
        ensures Before(ps[i], ps[j])
      {
        if j < |col| {
        } else if i < |col| {
          assert ps[j] == rest[j - |col|];
        } else {
          assert ps[i] == rest[i - |col|] && ps[j] == rest[j - |col|];
        }
      }
    }
  }

  lemma IncreasingDistinct(ps: seq<IVec2>)
    requires Increasing(ps)
    ensures forall i, j :: 0 <= i < j < |ps| ==> ps[i] != ps[j]
  {
  }

  /** `points()` has `width * height` entries for a non-empty rectangle. */
  lemma {:induction false} PointsLength(min: IVec2, max: IVec2)
    requires min.x <= max.x && min.y <= max.y
    decreases max.x - min.x
    ensures |Points(min, max)| == (max.x - min.x) * (max.y - min.y)
  {
    if min.x < max.x {
      PointsLength(IVec2(min.x + 1, min.y), max);
    }
  }
}

=== FILE: render.dfy ===
/** The render-phase bookkeeping of src/lib.rs: `prepare_binds` turns the
    overlap table into per-chunk bind groups and compute-pipeline requests,
    and `apply_ops` dispatches the bind groups whose pipeline has compiled,
    then forgets all bind groups. Bind groups and pipelines are represented
    by what the canvas puts into them; buffers, layouts, command encoders and
    the compile itself belong to the GPU runtime and are left out. */
module Render {
  import opened Rust
  import opened Bevy
  import opened ChunkStore
  import opened Canvas
  import opened Overlap

  type PipelineId = nat

  /** The shader a queued compute pipeline runs: the stamp shader
      (`place_tex.wgsl`, six bindings) or one of the canvas's simulation
      shaders (three bindings). */
  datatype Program = PlaceTexture | Simulation(path: string)

  /** `PipelineCache`: the pipelines queued so far; a pipeline's id is its
      position in the queue. Whether it has compiled is not tracked here:
      `apply_ops` receives the set of compiled ids. */
  datatype PipelineCache = PipelineCache(queued: seq<Program>)

  /** `cache` is a prefix of `cache'`: pipelines already queued keep their
      ids and programs. */
  predicate Extends(cache': PipelineCache, cache: PipelineCache) {
    && |cache.queued| <= |cache'.queued|
    && forall i :: 0 <= i < |cache.queued| ==> cache'.queued[i] == cache.queued[i]
  }

  /** Pipeline `id` has been queued and runs `prog`. */
  predicate Runs(cache: PipelineCache, id: PipelineId, prog: Program) {
    id < |cache.queued| && cache.queued[id] == prog
  }

  /** Pipelines `ids` run the simulation shaders `sims`, one each, in order. */
  predicate RunSimulations(cache: PipelineCache, ids: seq<PipelineId>, sims: seq<string>) {
    |ids| == |sims| && forall k :: 0 <= k < |sims| ==> Runs(cache, ids[k], Simulation(sims[k]))
  }

  /** Queueing more pipelines keeps what the earlier ones run. */
  lemma RunSimulationsExtends(cache': PipelineCache, cache: PipelineCache, ids: seq<PipelineId>, sims: seq<string>)
    requires Extends(cache', cache) && RunSimulations(cache, ids, sims)
    ensures RunSimulations(cache', ids, sims)
  {
  }

  /** `queue_compute_pipeline`: the new id runs `prog` and is fresh, no
      pipeline queued before has it; earlier pipelines are unchanged and the
      queue grows by one. */
  function QueuePipeline(cache: PipelineCache, prog: Program): (r: (PipelineCache, PipelineId))
    ensures Runs(r.0, r.1, prog) && r.1 >= |cache.queued|
    ensures Extends(r.0, cache) && |r.0.queued| == |cache.queued| + 1
  {
    (PipelineCache(cache.queued + [prog]), |cache.queued|)
  }

  /** The resources of a bind group: the destination chunk's image, the
      chunk's world origin and size, and for the stamp layout the stamp whose
      image, position and size are bound as the source. */
  datatype BindGroup = BindGroup(target: Handle, origin: IVec2, chunkSize: UVec2, source: Option<Stamp>)

  /** An entry `(BindGroup, UVec2)` of a bind map: the group and the chunk
      size the dispatch is computed from. */
  datatype Binding = Binding(group: BindGroup, size: UVec2)

  /** `RenderData`. `bindMap`/`shaderMap` serve the stamp shader,
      `bindMap2`/`shaderMap2` the simulation shaders. */
  datatype RenderData = RenderData(
    bindMap: map<IVec2, seq<Binding>>,
    shaderMap: map<IVec2, PipelineId>,
    bindMap2: map<IVec2, seq<Binding>>,
    shaderMap2: map<IVec2, seq<PipelineId>>)

  /** The state `prepare_binds` threads through: render data and the
      pipeline queue. */
  datatype Prep = Prep(rd: RenderData, cache: PipelineCache)

  function Bindings(m: map<IVec2, seq<Binding>>, c: IVec2): seq<Binding> {
    if c in m then m[c] else []
  }

  function Pipelines(m: map<IVec2, seq<PipelineId>>, c: IVec2): seq<PipelineId> {
    if c in m then m[c] else []
  }

  /** The bind-map entry built for chunk `c` with source `src`
      (`Some(stamp)` for the stamp layout, `None` for the simulation layout). */
  function BindingFor(pm: PixelMap, c: IVec2, src: Option<Stamp>): Binding
    requires c in pm.store.positions && pm.store.positions[c] < |pm.store.images|
  {
    Binding(BindGroup(HandleOf(pm.store, c), Scale(c, pm.chunkSize), pm.chunkSize, src), pm.chunkSize)
  }

  /** The stamp-layout entries for a bucket, one per stamp, in bucket order. */
  function StampBindings(pm: PixelMap, c: IVec2, stamps: seq<Stamp>): (r: seq<Binding>)
    requires c in pm.store.positions && pm.store.positions[c] < |pm.store.images|
    ensures |r| == |stamps|
    ensures forall i :: 0 <= i < |stamps| ==> r[i] == BindingFor(pm, c, Some(stamps[i]))
  {
    seq(|stamps|, i requires 0 <= i < |stamps| => BindingFor(pm, c, Some(stamps[i])))
  }

  /** The simulation-layout entries for a bucket: one per stamp, all alike. */
  function SimulationBindings(pm: PixelMap, c: IVec2, n: nat): (r: seq<Binding>)
    requires c in pm.store.positions && pm.store.positions[c] < |pm.store.images|
    ensures |r| == n
    ensures forall i :: 0 <= i < n ==> r[i] == BindingFor(pm, c, None)
  {
    seq(n, i => BindingFor(pm, c, None))
  }

  /** The ids `from .. from + n`. */
  function Ids(from: nat, n: nat): (r: seq<PipelineId>)
    ensures |r| == n
    ensures forall i :: 0 <= i < n ==> r[i] == from + i
  {
    seq(n, i => from + i)
  }

  /** The loop over `simulation_shaders`: one pipeline per shader, in order,
      each id pushed onto chunk `c`'s list (created on the first push). With
      no simulation shader nothing changes. */
  function QueueSimulations(m: map<IVec2, seq<PipelineId>>, cache: PipelineCache, c: IVec2, sims: seq<string>):
    (r: (map<IVec2, seq<PipelineId>>, PipelineCache))
    decreases |sims|
    ensures |r.1.queued| == |cache.queued| + |sims|
    ensures r.1.queued[..|cache.queued|] == cache.queued
    ensures forall i :: 0 <= i < |sims| ==> r.1.queued[|cache.queued| + i] == Simulation(sims[i])
    ensures forall d :: d in r.0 <==> d in m || (d == c && sims != [])
    ensures forall d :: d != c && d in m ==> r.0[d] == m[d]
    ensures Pipelines(r.0, c) == Pipelines(m, c) + Ids(|cache.queued|, |sims|)
  {
    if sims == [] then (m, cache) else
      var (cache1, id) := QueuePipeline(cache, Simulation(sims[0]));
      var m1 := m[c := Pipelines(m, c) + [id]];
      var r := QueueSimulations(m1, cache1, c, sims[1..]);
      assert Ids(|cache.queued|, |sims|) == [id] + Ids(|cache1.queued|, |sims| - 1);
      r
  }

  /** For a chunk with no list yet, the list the loop builds runs the
      simulation shaders in order. */
  lemma QueueSimulationsRun(m: map<IVec2, seq<PipelineId>>, cache: PipelineCache, c: IVec2, sims: seq<string>)
    ensures var r := QueueSimulations(m, cache, c, sims);
            c !in m ==> RunSimulations(r.1, Pipelines(r.0, c), sims)
  {
    var r := QueueSimulations(m, cache, c, sims);
    forall k | 0 <= k < |sims| && c !in m
      ensures Runs(r.1, Pipelines(r.0, c)[k], Simulation(sims[k]))
    {
      assert Pipelines(r.0, c)[k] == |cache.queued| + k;
    }
  }

  /** How many pipelines chunk `c` still lacks in `rd`: its stamp pipeline
      unless it has one, and one per simulation shader unless it has a
      simulation list. */
  function Missing(pm: PixelMap, rd: RenderData, c: IVec2): nat {
    (if c in rd.shaderMap then 0 else 1) + (if c in rd.shaderMap2 then 0 else |pm.simulationShaders|)
  }

  /** Every pipeline queued between `p` and `r` is assigned in `r` to a
      chunk that had no such assignment in `p`, as its stamp pipeline or in
      its simulation list: no pipeline is queued that no chunk uses. */
  ghost predicate NoOrphans(p: Prep, r: Prep) {
    forall id :: |p.cache.queued| <= id < |r.cache.queued| ==> AssignedAnew(p.rd, r.rd, id)
  }

  ghost predicate AssignedAnew(rd: RenderData, rd': RenderData, id: PipelineId) {
    exists d :: || (d in rd'.shaderMap && d !in rd.shaderMap && rd'.shaderMap[d] == id)
                || (d in rd'.shaderMap2 && d !in rd.shaderMap2 && id in rd'.shaderMap2[d])
  }

  /** Assignments in `rd` are still in `rd'`, unchanged. */
  predicate KeepsAssignments(rd': RenderData, rd: RenderData) {
    && (forall d :: d in rd.shaderMap ==> d in rd'.shaderMap && rd'.shaderMap[d] == rd.shaderMap[d])
    && (forall d :: d in rd.shaderMap2 ==> d in rd'.shaderMap2 && rd'.shaderMap2[d] == rd.shaderMap2[d])
  }

  /** No orphan pipelines over two consecutive steps that only add
      assignments. */
  lemma NoOrphansTrans(p: Prep, q: Prep, r: Prep)
    requires NoOrphans(p, q) && NoOrphans(q, r) && |p.cache.queued| <= |q.cache.queued|
    requires KeepsAssignments(q.rd, p.rd) && KeepsAssignments(r.rd, q.rd)
    ensures NoOrphans(p, r)
  {
    forall id | |p.cache.queued| <= id < |r.cache.queued|
      ensures AssignedAnew(p.rd, r.rd, id)
    {
      if id < |q.cache.queued| {
        assert AssignedAnew(p.rd, q.rd, id);
        var d :| || (d in q.rd.shaderMap && d !in p.rd.shaderMap && q.rd.shaderMap[d] == id)
                 || (d in q.rd.shaderMap2 && d !in p.rd.shaderMap2 && id in q.rd.shaderMap2[d]);
        assert (d in r.rd.shaderMap && d !in p.rd.shaderMap && r.rd.shaderMap[d] == id)
            || (d in r.rd.shaderMap2 && d !in p.rd.shaderMap2 && id in r.rd.shaderMap2[d]);
      } else {
        assert AssignedAnew(q.rd, r.rd, id);
        var d :| || (d in r.rd.shaderMap && d !in q.rd.shaderMap && r.rd.shaderMap[d] == id)
                 || (d in r.rd.shaderMap2 && d !in q.rd.shaderMap2 && id in r.rd.shaderMap2[d]);
        assert (d in r.rd.shaderMap && d !in p.rd.shaderMap && r.rd.shaderMap[d] == id)
            || (d in r.rd.shaderMap2 && d !in p.rd.shaderMap2 && id in r.rd.shaderMap2[d]);
      }
    }
  }

  /** One pass of the inner loop of `prepare_binds`, for stamp `s` of chunk
      `c`'s bucket: an entry for each bind map, and the chunk's pipelines
      queued if it has none yet. */
  function PrepareStamp(pm: PixelMap, p: Prep, c: IVec2, s: Stamp): (r: Prep)
    requires c in pm.store.positions && pm.store.positions[c] < |pm.store.images|
    ensures Extends(r.cache, p.cache)
    ensures c in r.rd.bindMap && c in r.rd.bindMap2 && c in r.rd.shaderMap
    ensures forall d :: d in p.rd.shaderMap ==> d in r.rd.shaderMap && r.rd.shaderMap[d] == p.rd.shaderMap[d]
    ensures forall d :: d in p.rd.shaderMap2 ==> d in r.rd.shaderMap2 && r.rd.shaderMap2[d] == p.rd.shaderMap2[d]
    ensures c !in p.rd.shaderMap ==> Runs(r.cache, r.rd.shaderMap[c], PlaceTexture)
    ensures c !in p.rd.shaderMap2 && pm.simulationShaders != [] ==>
              c in r.rd.shaderMap2 && RunSimulations(r.cache, r.rd.shaderMap2[c], pm.simulationShaders)
    ensures |r.cache.queued| == |p.cache.queued| + Missing(pm, p.rd, c)
    ensures Missing(pm, r.rd, c) == 0
  {
    var rd := p.rd;
    var bindMap := rd.bindMap[c := Bindings(rd.bindMap, c) + [BindingFor(pm, c, Some(s))]];
    var (shaderMap, cache1) :=
      if c in rd.shaderMap then (rd.shaderMap, p.cache)
      else var (cache', id) := QueuePipeline(p.cache, PlaceTexture); (rd.shaderMap[c := id], cache');
    var bindMap2 := rd.bindMap2[c := Bindings(rd.bindMap2, c) + [BindingFor(pm, c, None)]];
    var (shaderMap2, cache2) :=
      if c in rd.shaderMap2 then (rd.shaderMap2, cache1)
      else QueueSimulations(rd.shaderMap2, cache1, c, pm.simulationShaders);
    QueueSimulationsRun(rd.shaderMap2, cache1, c, pm.simulationShaders);
    Prep(RenderData(bindMap, shaderMap, bindMap2, shaderMap2), cache2)
  }

  /** The inner loop of `prepare_binds` over the stamps of chunk `c`'s
      bucket. Only the first stamp queues pipelines, and only those the
      chunk lacks. */
  function PrepareBucket(pm: PixelMap, p: Prep, c: IVec2, stamps: seq<Stamp>): (r: Prep)
    requires c in pm.store.positions && pm.store.positions[c] < |pm.store.images|
    decreases |stamps|
    ensures Extends(r.cache, p.cache)
    ensures stamps != [] ==> c in r.rd.shaderMap
    ensures forall d :: d in p.rd.shaderMap ==> d in r.rd.shaderMap && r.rd.shaderMap[d] == p.rd.shaderMap[d]
    ensures forall d :: d in p.rd.shaderMap2 ==> d in r.rd.shaderMap2 && r.rd.shaderMap2[d] == p.rd.shaderMap2[d]
    ensures |r.cache.queued| == |p.cache.queued| + (if stamps == [] then 0 else Missing(pm, p.rd, c))
    ensures stamps != [] ==> Missing(pm, r.rd, c) == 0
  {
    if stamps == [] then p else PrepareBucket(pm, PrepareStamp(pm, p, c, stamps[0]), c, stamps[1..])
  }

  /** The pipelines one stamp queues are assigned to its chunk. */
  lemma PrepareStampNoOrphans(pm: PixelMap, p: Prep, c: IVec2, s: Stamp)
    requires c in pm.store.positions && pm.store.positions[c] < |pm.store.images|
    ensures NoOrphans(p, PrepareStamp(pm, p, c, s))
  {
    var r := PrepareStamp(pm, p, c, s);
    var n1 := |p.cache.queued| + (if c in p.rd.shaderMap then 0 else 1);
    var cache1 := if c in p.rd.shaderMap then p.cache else QueuePipeline(p.cache, PlaceTexture).0;
    assert |cache1.queued| == n1;
    forall id | |p.cache.queued| <= id < |r.cache.queued|
      ensures AssignedAnew(p.rd, r.rd, id)
    {
      if id < n1 {
        assert c !in p.rd.shaderMap && r.rd.shaderMap[c] == id;
      } else {
        var q := QueueSimulations(p.rd.shaderMap2, cache1, c, pm.simulationShaders);
        assert c !in p.rd.shaderMap2 && r.rd.shaderMap2 == q.0;
        assert Pipelines(q.0, c)[id - n1] == id;
        assert c in r.rd.shaderMap2 && id in r.rd.shaderMap2[c];
      }
    }
  }

  /** The pipelines one bucket queues are assigned to its chunk. */
  lemma {:induction false} PrepareBucketNoOrphans(pm: PixelMap, p: Prep, c: IVec2, stamps: seq<Stamp>)
    requires c in pm.store.positions && pm.store.positions[c] < |pm.store.images|
    decreases |stamps|
    ensures NoOrphans(p, PrepareBucket(pm, p, c, stamps))
  {
    if stamps != [] {
      var p1 := PrepareStamp(pm, p, c, stamps[0]);
      PrepareStampNoOrphans(pm, p, c, stamps[0]);
      PrepareBucketNoOrphans(pm, p1, c, stamps[1..]);
      NoOrphansTrans(p, p1, PrepareBucket(pm, p1, c, stamps[1..]));
    }
  }

  /** `prepare_binds`, visiting the overlap table's chunks in `order`.
      `image_data[positions[chunk_pos]]` panics for a chunk with a non-empty
      bucket that is missing from the store. */
  function PrepareBinds(pm: PixelMap, p: Prep, order: seq<IVec2>): (r: Outcome<Prep>)
    requires SlotsValid(pm.store)
    decreases |order|
    ensures r.Done? ==> Extends(r.value.cache, p.cache)
    ensures r.Done? ==> forall d :: d in p.rd.shaderMap ==>
              d in r.value.rd.shaderMap && r.value.rd.shaderMap[d] == p.rd.shaderMap[d]
    ensures r.Done? ==> forall d :: d in p.rd.shaderMap2 ==>
              d in r.value.rd.shaderMap2 && r.value.rd.shaderMap2[d] == p.rd.shaderMap2[d]
  {
    if order == [] then Done(p)
    else
      var c := order[0];
      var stamps := Lookup(pm.buckets, c);
      if stamps == [] then PrepareBinds(pm, p, order[1..])
      else if c !in pm.store.positions then Panicked("positions[chunk_pos]")
      else PrepareBinds(pm, PrepareBucket(pm, p, c, stamps), order[1..])
  }

  /** Every chunk the bucket loop works on gets the bucket's entries appended
      in both bind maps, gets a stamp pipeline if it had none, and gets its
      simulation pipelines if it had none and there are simulation shaders;
      all other chunks and all existing pipeline assignments are untouched. */
  lemma PrepareBucketEffect(pm: PixelMap, p: Prep, c: IVec2, stamps: seq<Stamp>)
    requires c in pm.store.positions && pm.store.positions[c] < |pm.store.images|
    ensures var r := PrepareBucket(pm, p, c, stamps).rd;
            && Bindings(r.bindMap, c) == Bindings(p.rd.bindMap, c) + StampBindings(pm, c, stamps)
            && Bindings(r.bindMap2, c) == Bindings(p.rd.bindMap2, c) + SimulationBindings(pm, c, |stamps|)
            && (forall d :: d != c ==> Bindings(r.bindMap, d) == Bindings(p.rd.bindMap, d))
            && (forall d :: d != c ==> Bindings(r.bindMap2, d) == Bindings(p.rd.bindMap2, d))
            && (forall d :: d in r.bindMap <==> d in p.rd.bindMap || (d == c && stamps != []))
            && (forall d :: d in r.bindMap2 <==> d in p.rd.bindMap2 || (d == c && stamps != []))
            && (forall d :: d in p.rd.shaderMap ==> d in r.shaderMap && r.shaderMap[d] == p.rd.shaderMap[d])
            && (forall d :: d in r.shaderMap <==> d in p.rd.shaderMap || (d == c && stamps != []))
            && (forall d :: d in p.rd.shaderMap2 ==> d in r.shaderMap2 && r.shaderMap2[d] == p.rd.shaderMap2[d])
            && (forall d :: d in r.shaderMap2 <==>
                  d in p.rd.shaderMap2 || (d == c && stamps != [] && pm.simulationShaders != []))
            && (stamps != [] && c !in p.rd.shaderMap ==>
                  Runs(PrepareBucket(pm, p, c, stamps).cache, r.shaderMap[c], PlaceTexture))
            && (stamps != [] && c !in p.rd.shaderMap2 && pm.simulationShaders != [] ==>
                  RunSimulations(PrepareBucket(pm, p, c, stamps).cache, r.shaderMap2[c], pm.simulationShaders))
    ensures var q := PrepareBucket(pm, p, c, stamps);
            && |q.cache.queued| == |p.cache.queued| + (if stamps == [] then 0 else Missing(pm, p.rd, c))
            && NoOrphans(p, q)
  {
    PrepareBucketNoOrphans(pm, p, c, stamps);
    PrepareBucketStampBinds(pm, p, c, stamps);
    PrepareBucketSimulationBinds(pm, p, c, stamps);
    PrepareBucketPipelines(pm, p, c, stamps);
  }

  /** One stamp appends one entry to each of chunk `c`'s bind lists and no
      other chunk's. */
  lemma PrepareStampBinds(pm: PixelMap, p: Prep, c: IVec2, s: Stamp)
    requires c in pm.store.positions && pm.store.positions[c] < |pm.store.images|
    ensures var r := PrepareStamp(pm, p, c, s).rd;
            && Bindings(r.bindMap, c) == Bindings(p.rd.bindMap, c) + [BindingFor(pm, c, Some(s))]
            && Bindings(r.bindMap2, c) == Bindings(p.rd.bindMap2, c) + [BindingFor(pm, c, None)]
            && (forall d :: d != c ==> Bindings(r.bindMap, d) == Bindings(p.rd.bindMap, d))
            && (forall d :: d != c ==> Bindings(r.bindMap2, d) == Bindings(p.rd.bindMap2, d))
            && r.bindMap.Keys == p.rd.bindMap.Keys + {c}
            && r.bindMap2.Keys == p.rd.bindMap2.Keys + {c}
  {
  }

  /** The stamp bind-map part of `PrepareBucketEffect`. */
  lemma {:induction false} PrepareBucketStampBinds(pm: PixelMap, p: Prep, c: IVec2, stamps: seq<Stamp>)
    requires c in pm.store.positions && pm.store.positions[c] < |pm.store.images|
    decreases |stamps|
    ensures var r := PrepareBucket(pm, p, c, stamps).rd;
            && Bindings(r.bindMap, c) == Bindings(p.rd.bindMap, c) + StampBindings(pm, c, stamps)
            && (forall d :: d != c ==> Bindings(r.bindMap, d) == Bindings(p.rd.bindMap, d))
            && (forall d :: d in r.bindMap <==> d in p.rd.bindMap || (d == c && stamps != []))
  {
    if stamps != [] {
      var p1 := PrepareStamp(pm, p, c, stamps[0]);
      var r := PrepareBucket(pm, p1, c, stamps[1..]).rd;
      assert PrepareBucket(pm, p, c, stamps).rd == r;
      PrepareStampBinds(pm, p, c, stamps[0]);
      PrepareBucketStampBinds(pm, p1, c, stamps[1..]);
      var b := BindingFor(pm, c, Some(stamps[0]));
      assert StampBindings(pm, c, stamps) == [b] + StampBindings(pm, c, stamps[1..]);
      assert Bindings(r.bindMap, c) == (Bindings(p.rd.bindMap, c) + [b]) + StampBindings(pm, c, stamps[1..]);
    }
  }

  /** The simulation bind-map part of `PrepareBucketEffect`. */
  lemma {:induction false} PrepareBucketSimulationBinds(pm: PixelMap, p: Prep, c: IVec2, stamps: seq<Stamp>)
    requires c in pm.store.positions && pm.store.positions[c] < |pm.store.images|
    decreases |stamps|
    ensures var r := PrepareBucket(pm, p, c, stamps).rd;
            && Bindings(r.bindMap2, c) == Bindings(p.rd.bindMap2, c) + SimulationBindings(pm, c, |stamps|)
            && (forall d :: d != c ==> Bindings(r.bindMap2, d) == Bindings(p.rd.bindMap2, d))
            && (forall d :: d in r.bindMap2 <==> d in p.rd.bindMap2 || (d == c && stamps != []))
  {
    if stamps != [] {
      var p1 := PrepareStamp(pm, p, c, stamps[0]);
      var r := PrepareBucket(pm, p1, c, stamps[1..]).rd;
      assert PrepareBucket(pm, p, c, stamps).rd == r;
      PrepareStampBinds(pm, p, c, stamps[0]);
      PrepareBucketSimulationBinds(pm, p1, c, stamps[1..]);
      var b := BindingFor(pm, c, None);
      assert SimulationBindings(pm, c, |stamps|) == [b] + SimulationBindings(pm, c, |stamps| - 1);
      assert Bindings(r.bindMap2, c) == (Bindings(p.rd.bindMap2, c) + [b]) + SimulationBindings(pm, c, |stamps| - 1);
    }
  }

  /** The pipeline half of `PrepareBucketEffect`. */
  lemma {:induction false} PrepareBucketPipelines(pm: PixelMap, p: Prep, c: IVec2, stamps: seq<Stamp>)
    requires c in pm.store.positions && pm.store.positions[c] < |pm.store.images|
    decreases |stamps|
    ensures var r := PrepareBucket(pm, p, c, stamps).rd;
            && (forall d :: d in p.rd.shaderMap ==> d in r.shaderMap && r.shaderMap[d] == p.rd.shaderMap[d])
            && (forall d :: d in r.shaderMap <==> d in p.rd.shaderMap || (d == c && stamps != []))
            && (forall d :: d in p.rd.shaderMap2 ==> d in r.shaderMap2 && r.shaderMap2[d] == p.rd.shaderMap2[d])
            && (forall d :: d in r.shaderMap2 <==>
                  d in p.rd.shaderMap2 || (d == c && stamps != [] && pm.simulationShaders != []))
            && (stamps != [] && c !in p.rd.shaderMap ==>
                  Runs(PrepareBucket(pm, p, c, stamps).cache, r.shaderMap[c], PlaceTexture))
            && (stamps != [] && c !in p.rd.shaderMap2 && pm.simulationShaders != [] ==>
                  RunSimulations(PrepareBucket(pm, p, c, stamps).cache, r.shaderMap2[c], pm.simulationShaders))
  {
    if stamps != [] {
      var p1 := PrepareStamp(pm, p, c, stamps[0]);
      PrepareBucketPipelines(pm, p1, c, stamps[1..]);
    }
  }

  /** A chunk whose bucket `prepare_binds` works on. */
  predicate Served(pm: PixelMap, order: seq<IVec2>, c: IVec2) {
    c in order && Lookup(pm.buckets, c) != []
  }

  /** `prepare_binds` panics exactly when a chunk with a non-empty bucket is
      missing from the store. */
  lemma {:induction false} PrepareBindsPanics(pm: PixelMap, p: Prep, order: seq<IVec2>)
    requires SlotsValid(pm.store)
    decreases |order|
    ensures PrepareBinds(pm, p, order).Panicked? <==>
              exists c :: Served(pm, order, c) && c !in pm.store.positions
  {
    if order != [] {
      var c := order[0];
      var stamps := Lookup(pm.buckets, c);
      var next := if stamps == [] || c !in pm.store.positions then p else PrepareBucket(pm, p, c, stamps);
      PrepareBindsPanics(pm, next, order[1..]);
      if exists d :: Served(pm, order[1..], d) && d !in pm.store.positions {
        var d :| Served(pm, order[1..], d) && d !in pm.store.positions;
        assert Served(pm, order, d);
      }
      if exists d :: Served(pm, order, d) && d !in pm.store.positions {
        var d :| Served(pm, order, d) && d !in pm.store.positions;
        if d != c {
          assert Served(pm, order[1..], d);
        }
      }
    }
  }

  /** What a successful `prepare_binds` does: each served chunk's bucket is
      appended, one entry per stamp and in bucket order, to both bind maps;
      each served chunk has a stamp pipeline, and simulation pipelines when
      the canvas has simulation shaders; pipelines once assigned to a chunk
      stay assigned; nothing else changes. */
  lemma PrepareBindsEffect(pm: PixelMap, p: Prep, order: seq<IVec2>)
    requires SlotsValid(pm.store)
    requires forall i, j :: 0 <= i < j < |order| ==> order[i] != order[j]
    requires PrepareBinds(pm, p, order).Done?
    ensures var r := PrepareBinds(pm, p, order).value.rd;
            && (forall d :: Served(pm, order, d) ==> d in pm.store.positions)
            && (forall d :: Served(pm, order, d) ==>
                  Bindings(r.bindMap, d) == Bindings(p.rd.bindMap, d) + StampBindings(pm, d, Lookup(pm.buckets, d)) &&
                  Bindings(r.bindMap2, d) == Bindings(p.rd.bindMap2, d) + SimulationBindings(pm, d, |Lookup(pm.buckets, d)|))
            && (forall d :: !Served(pm, order, d) ==>
                  Bindings(r.bindMap, d) == Bindings(p.rd.bindMap, d) && Bindings(r.bindMap2, d) == Bindings(p.rd.bindMap2, d))
            && (forall d :: d in r.bindMap <==> d in p.rd.bindMap || Served(pm, order, d))
            && (forall d :: d in r.bindMap2 <==> d in p.rd.bindMap2 || Served(pm, order, d))
            && (forall d :: d in p.rd.shaderMap ==> d in r.shaderMap && r.shaderMap[d] == p.rd.shaderMap[d])
            && (forall d :: d in r.shaderMap <==> d in p.rd.shaderMap || Served(pm, order, d))
            && (forall d :: d in p.rd.shaderMap2 ==> d in r.shaderMap2 && r.shaderMap2[d] == p.rd.shaderMap2[d])
            && (forall d :: d in r.shaderMap2 <==>
                  d in p.rd.shaderMap2 || (Served(pm, order, d) && pm.simulationShaders != []))
    ensures NoOrphans(p, PrepareBinds(pm, p, order).value)
  {
    PrepareBindsNoOrphans(pm, p, order);
    PrepareBindsPanics(pm, p, order);
    PrepareBindsStampBinds(pm, p, order);
    PrepareBindsSimulationBinds(pm, p, order);
    PrepareBindsShaders(pm, p, order);
  }

  /** The no-orphan part of `PrepareBindsEffect`: every pipeline
      `prepare_binds` queues is assigned to a chunk that had none. */
  lemma {:induction false} PrepareBindsNoOrphans(pm: PixelMap, p: Prep, order: seq<IVec2>)
    requires SlotsValid(pm.store)
    requires PrepareBinds(pm, p, order).Done?
    decreases |order|
    ensures NoOrphans(p, PrepareBinds(pm, p, order).value)
  {
    if order != [] {
      var c := order[0];
      var stamps := Lookup(pm.buckets, c);
      if stamps == [] {
        PrepareBindsNoOrphans(pm, p, order[1..]);
      } else {
        var p1 := PrepareBucket(pm, p, c, stamps);
        PrepareBucketNoOrphans(pm, p, c, stamps);
        PrepareBindsNoOrphans(pm, p1, order[1..]);
        NoOrphansTrans(p, p1, PrepareBinds(pm, p1, order[1..]).value);
      }
    }
  }

  /** The stamp bind-map part of `PrepareBindsEffect`. */
  lemma {:induction false} PrepareBindsStampBinds(pm: PixelMap, p: Prep, order: seq<IVec2>)
    requires SlotsValid(pm.store)
    requires forall i, j :: 0 <= i < j < |order| ==> order[i] != order[j]
    requires PrepareBinds(pm, p, order).Done?
    decreases |order|
    ensures var r := PrepareBinds(pm, p, order).value.rd;
            && (forall d :: Served(pm, order, d) ==> d in pm.store.positions)
            && (forall d :: Served(pm, order, d) ==>
                  Bindings(r.bindMap, d) == Bindings(p.rd.bindMap, d) + StampBindings(pm, d, Lookup(pm.buckets, d)))
            && (forall d :: !Served(pm, order, d) ==> Bindings(r.bindMap, d) == Bindings(p.rd.bindMap, d))
            && (forall d :: d in r.bindMap <==> d in p.rd.bindMap || Served(pm, order, d))
  {
    PrepareBindsPanics(pm, p, order);
    if order != [] {
      var c := order[0];
      var stamps := Lookup(pm.buckets, c);
      var rest := order[1..];
      assert forall d :: Served(pm, order, d) <==> (d == c && stamps != []) || Served(pm, rest, d);
      assert c !in rest;
      if stamps == [] {
        PrepareBindsStampBinds(pm, p, rest);
      } else {
        var p1 := PrepareBucket(pm, p, c, stamps);
        PrepareBucketStampBinds(pm, p, c, stamps);
        PrepareBindsStampBinds(pm, p1, rest);
      }
    }
  }

  /** The simulation bind-map part of `PrepareBindsEffect`. */
  lemma {:induction false} PrepareBindsSimulationBinds(pm: PixelMap, p: Prep, order: seq<IVec2>)
    requires SlotsValid(pm.store)
    requires forall i, j :: 0 <= i < j < |order| ==> order[i] != order[j]
    requires PrepareBinds(pm, p, order).Done?
    decreases |order|
    ensures var r := PrepareBinds(pm, p, order).value.rd;
            && (forall d :: Served(pm, order, d) ==> d in pm.store.positions)
            && (forall d :: Served(pm, order, d) ==>
                  Bindings(r.bindMap2, d) == Bindings(p.rd.bindMap2, d) + SimulationBindings(pm, d, |Lookup(pm.buckets, d)|))
            && (forall d :: !Served(pm, order, d) ==> Bindings(r.bindMap2, d) == Bindings(p.rd.bindMap2, d))
            && (forall d :: d in r.bindMap2 <==> d in p.rd.bindMap2 || Served(pm, order, d))
  {
    PrepareBindsPanics(pm, p, order);
    if order != [] {
      var c := order[0];
      var stamps := Lookup(pm.buckets, c);
      var rest := order[1..];
      assert forall d :: Served(pm, order, d) <==> (d == c && stamps != []) || Served(pm, rest, d);
      assert c !in rest;
      if stamps == [] {
        PrepareBindsSimulationBinds(pm, p, rest);
      } else {
        var p1 := PrepareBucket(pm, p, c, stamps);
        PrepareBucketSimulationBinds(pm, p, c, stamps);
        PrepareBindsSimulationBinds(pm, p1, rest);
      }
    }
  }

  /** The pipeline-assignment part of `PrepareBindsEffect`. */
  lemma {:induction false} PrepareBindsShaders(pm: PixelMap, p: Prep, order: seq<IVec2>)
    requires SlotsValid(pm.store)
    requires PrepareBinds(pm, p, order).Done?
    decreases |order|
    ensures var r := PrepareBinds(pm, p, order).value.rd;
            && (forall d :: d in r.shaderMap <==> d in p.rd.shaderMap || Served(pm, order, d))
            && (forall d :: d in r.shaderMap2 <==>
                  d in p.rd.shaderMap2 || (Served(pm, order, d) && pm.simulationShaders != []))
  {
    if order != [] {
      var c := order[0];
      var stamps := Lookup(pm.buckets, c);
      var rest := order[1..];
      assert forall d :: Served(pm, order, d) <==> (d == c && stamps != []) || Served(pm, rest, d);
      if stamps == [] {
        PrepareBindsShaders(pm, p, rest);
      } else {
        var p1 := PrepareBucket(pm, p, c, stamps);
        PrepareBucketPipelines(pm, p, c, stamps);
        PrepareBindsShaders(pm, p1, rest);
      }
    }
  }

  /** The pipelines `prepare_binds` queues for a served chunk that had none
      run the stamp shader and the simulation shaders, in order, and no
      other pipeline is queued. */
  lemma PrepareBindsPrograms(pm: PixelMap, p: Prep, order: seq<IVec2>)
    requires SlotsValid(pm.store)
    requires forall i, j :: 0 <= i < j < |order| ==> order[i] != order[j]
    requires PrepareBinds(pm, p, order).Done?
    ensures var q := PrepareBinds(pm, p, order).value;
            && (forall d :: Served(pm, order, d) && d !in p.rd.shaderMap ==>
                  d in q.rd.shaderMap && Runs(q.cache, q.rd.shaderMap[d], PlaceTexture))
            && (forall d :: Served(pm, order, d) && d !in p.rd.shaderMap2 && pm.simulationShaders != [] ==>
                  d in q.rd.shaderMap2 && RunSimulations(q.cache, q.rd.shaderMap2[d], pm.simulationShaders))
            && NoOrphans(p, q)
  {
    PrepareBindsNoOrphans(pm, p, order);
    StampPrograms(pm, p, order);
    SimulationPrograms(pm, p, order);
  }

  /** The stamp-pipeline part of `PrepareBindsPrograms`. */
  lemma {:induction false} StampPrograms(pm: PixelMap, p: Prep, order: seq<IVec2>)
    requires SlotsValid(pm.store)
    requires forall i, j :: 0 <= i < j < |order| ==> order[i] != order[j]
    requires PrepareBinds(pm, p, order).Done?
    decreases |order|
    ensures var q := PrepareBinds(pm, p, order).value;
            forall d :: Served(pm, order, d) && d !in p.rd.shaderMap ==>
              d in q.rd.shaderMap && Runs(q.cache, q.rd.shaderMap[d], PlaceTexture)
  {
    if order != [] {
      var c := order[0];
      var stamps := Lookup(pm.buckets, c);
      var rest := order[1..];
      assert forall d :: Served(pm, order, d) <==> (d == c && stamps != []) || Served(pm, rest, d);
      if stamps == [] {
        StampPrograms(pm, p, rest);
      } else {
        assert c !in rest;
        var p1 := PrepareBucket(pm, p, c, stamps);
        PrepareBucketPipelines(pm, p, c, stamps);
        StampPrograms(pm, p1, rest);
        var q := PrepareBinds(pm, p1, rest).value;
        assert q == PrepareBinds(pm, p, order).value;
        forall d | Served(pm, order, d) && d !in p.rd.shaderMap
          ensures d in q.rd.shaderMap && Runs(q.cache, q.rd.shaderMap[d], PlaceTexture)
        {
          if d != c {
            assert Served(pm, rest, d) && d !in p1.rd.shaderMap;
          }
        }
      }
    }
  }

  /** The simulation-pipeline part of `PrepareBindsPrograms`. */
  lemma {:induction false} SimulationPrograms(pm: PixelMap, p: Prep, order: seq<IVec2>)
    requires SlotsValid(pm.store)
    requires forall i, j :: 0 <= i < j < |order| ==> order[i] != order[j]
    requires PrepareBinds(pm, p, order).Done?
    decreases |order|
    ensures var q := PrepareBinds(pm, p, order).value;
            forall d :: Served(pm, order, d) && d !in p.rd.shaderMap2 && pm.simulationShaders != [] ==>
              d in q.rd.shaderMap2 && RunSimulations(q.cache, q.rd.shaderMap2[d], pm.simulationShaders)
  {
    if order != [] {
      var c := order[0];
      var stamps := Lookup(pm.buckets, c);
      var rest := order[1..];
      assert forall d :: Served(pm, order, d) <==> (d == c && stamps != []) || Served(pm, rest, d);
      if stamps == [] {
        SimulationPrograms(pm, p, rest);
      } else {
        assert c !in rest;
        var p1 := PrepareBucket(pm, p, c, stamps);
        PrepareBucketPipelines(pm, p, c, stamps);
        SimulationPrograms(pm, p1, rest);
        var q := PrepareBinds(pm, p1, rest).value;
        assert q == PrepareBinds(pm, p, order).value;
        var sims := pm.simulationShaders;
        forall d | Served(pm, order, d) && d !in p.rd.shaderMap2 && sims != []
          ensures d in q.rd.shaderMap2 && RunSimulations(q.cache, q.rd.shaderMap2[d], sims)
        {
          if d == c {
            RunSimulationsExtends(q.cache, p1.cache, p1.rd.shaderMap2[c], sims);
          } else {
            assert Served(pm, rest, d) && d !in p1.rd.shaderMap2;
          }
        }
      }
    }
  }

  /** Every chunk with stamp bind groups has a stamp pipeline, and every chunk
      with simulation bind groups has a list of simulation pipelines: the
      condition under which both `unwrap`s of `apply_ops` succeed. */
  predicate Consistent(rd: RenderData) {
    StampConsistent(rd) && forall c :: c in rd.bindMap2 ==> c in rd.shaderMap2
  }

  /** Every chunk with stamp bind groups has a stamp pipeline. */
  predicate StampConsistent(rd: RenderData) {
    forall c :: c in rd.bindMap ==> c in rd.shaderMap
  }

  /** A frame's `prepare_binds` after `prepare_chunks` (so every bucket's
      chunk exists) does not panic, and from consistent render data it leaves
      them consistent provided the canvas has at least one simulation shader. */
  lemma PrepareBindsKeepsConsistent(pm: PixelMap, p: Prep, order: seq<IVec2>)
    requires SlotsValid(pm.store)
    requires Enumerates(order, pm.buckets.Keys)
    requires forall c :: c in pm.buckets ==> c in pm.store.positions
    requires Consistent(p.rd)
    requires pm.simulationShaders != []
    ensures PrepareBinds(pm, p, order).Done?
    ensures Consistent(PrepareBinds(pm, p, order).value.rd)
  {
    PrepareBindsPanics(pm, p, order);
    PrepareBindsEffect(pm, p, order);
  }

  /** One compute dispatch: the pipeline, the bind group and the workgroup
      counts `(size.x / 8, size.y / 8, 1)` of its bind-map entry. */
  datatype Dispatch = Dispatch(pipeline: PipelineId, binding: Binding, workgroups: (nat, nat, nat))

  /** The dispatches of pipeline `id` over the entries `bs`, one per entry,
      in order. */
  function DispatchAll(id: PipelineId, bs: seq<Binding>): (r: seq<Dispatch>)
    ensures |r| == |bs|
    ensures forall i :: 0 <= i < |bs| ==>
              r[i].pipeline == id && r[i].binding == bs[i] &&
              r[i].workgroups == (bs[i].size.x / 8, bs[i].size.y / 8, 1)
  {
    seq(|bs|, i requires 0 <= i < |bs| => Dispatch(id, bs[i], (bs[i].size.x / 8, bs[i].size.y / 8, 1)))
  }

  /** The dispatches of chunk `c` in the stamp layer. */
  function StampDispatches(rd: RenderData, ready: set<PipelineId>, c: IVec2): seq<Dispatch>
    requires c in rd.shaderMap
  {
    if rd.shaderMap[c] in ready then DispatchAll(rd.shaderMap[c], Bindings(rd.bindMap, c)) else []
  }

  /** The stamp dispatches of each chunk of `order`, chunk by chunk; none
      for a chunk without a stamp pipeline. */
  function StampLists(rd: RenderData, ready: set<PipelineId>, order: seq<IVec2>): seq<seq<Dispatch>> {
    seq(|order|, i requires 0 <= i < |order| =>
      if order[i] in rd.shaderMap then StampDispatches(rd, ready, order[i]) else [])
  }

  /** The first loop of `apply_ops`, over the stamp bind map in `order`. The
      `unwrap` of the chunk's stamp pipeline panics when it has none. */
  function StampLayer(rd: RenderData, ready: set<PipelineId>, order: seq<IVec2>): (r: Outcome<seq<Dispatch>>)
    decreases |order|
    ensures r.Done? <==> forall i :: 0 <= i < |order| ==> order[i] in rd.shaderMap
    ensures r.Done? ==> r.value == Concat(StampLists(rd, ready, order))
  {
    if order == [] then Done([]) else
      var c := order[0];
      var rest := StampLayer(rd, ready, order[1..]);
      if c !in rd.shaderMap then Panicked("shader_map.get(chunk_pos).unwrap()")
      else if rest.Panicked? then
        var i :| 0 <= i < |order[1..]| && order[1..][i] !in rd.shaderMap;
        assert order[i + 1] !in rd.shaderMap;
        rest
      else
        StampListsCons(rd, ready, order);
        Done(StampDispatches(rd, ready, c) + rest.value)
  }

  /** The first chunk's list followed by the lists of the others. */
  lemma StampListsCons(rd: RenderData, ready: set<PipelineId>, order: seq<IVec2>)
    requires order != [] && order[0] in rd.shaderMap
    ensures StampLists(rd, ready, order) == [StampDispatches(rd, ready, order[0])] + StampLists(rd, ready, order[1..])
  {
    var head := [StampDispatches(rd, ready, order[0])];
    var tail := StampLists(rd, ready, order[1..]);
    forall i | 0 <= i < |order|
      ensures StampLists(rd, ready, order)[i] == (head + tail)[i]
    {
      if i > 0 {
        assert order[1..][i - 1] == order[i];
      }
    }
  }

  /** A dispatch of the first loop is a stamp dispatch of a visited chunk,
      and every stamp dispatch of a visited chunk is issued. */
  lemma StampLayerMembers(rd: RenderData, ready: set<PipelineId>, order: seq<IVec2>, x: Dispatch)
    requires StampLayer(rd, ready, order).Done?
    ensures x in StampLayer(rd, ready, order).value <==>
              exists i :: 0 <= i < |order| && order[i] in rd.shaderMap && x in StampDispatches(rd, ready, order[i])
  {
    var lists := StampLists(rd, ready, order);
    ConcatMember(lists, x);
    if exists i :: 0 <= i < |order| && order[i] in rd.shaderMap && x in StampDispatches(rd, ready, order[i]) {
      var i :| 0 <= i < |order| && order[i] in rd.shaderMap && x in StampDispatches(rd, ready, order[i]);
      assert x in lists[i];
    }
  }

  /** The dispatches of each pipeline of `ids` over all entries `bs`,
      pipeline by pipeline; none for a pipeline that has not compiled. */
  function PipelineLists(ids: seq<PipelineId>, ready: set<PipelineId>, bs: seq<Binding>): seq<seq<Dispatch>> {
    seq(|ids|, i requires 0 <= i < |ids| => if ids[i] in ready then DispatchAll(ids[i], bs) else [])
  }

  /** The dispatches of every pipeline of `ids` that has compiled, each over
      all entries `bs`. */
  function PipelineDispatches(ids: seq<PipelineId>, ready: set<PipelineId>, bs: seq<Binding>): (r: seq<Dispatch>)
    decreases |ids|
    ensures r == Concat(PipelineLists(ids, ready, bs))
  {
    if ids == [] then [] else
      assert PipelineLists(ids, ready, bs) ==
             [if ids[0] in ready then DispatchAll(ids[0], bs) else []] + PipelineLists(ids[1..], ready, bs);
      (if ids[0] in ready then DispatchAll(ids[0], bs) else []) + PipelineDispatches(ids[1..], ready, bs)
  }

  /** A chunk's simulation dispatch comes from one of its compiled
      pipelines, and each compiled pipeline is dispatched over every entry. */
  lemma PipelineDispatchesMembers(ids: seq<PipelineId>, ready: set<PipelineId>, bs: seq<Binding>, x: Dispatch)
    ensures x in PipelineDispatches(ids, ready, bs) <==>
              exists i :: 0 <= i < |ids| && ids[i] in ready && x in DispatchAll(ids[i], bs)
  {
    var lists := PipelineLists(ids, ready, bs);
    ConcatMember(lists, x);
    if exists i :: 0 <= i < |ids| && ids[i] in ready && x in DispatchAll(ids[i], bs) {
      var i :| 0 <= i < |ids| && ids[i] in ready && x in DispatchAll(ids[i], bs);
      assert x in lists[i];
    }
  }

  /** The dispatches of chunk `c` in the simulation layer. */
  function SimulationDispatches(rd: RenderData, ready: set<PipelineId>, c: IVec2): seq<Dispatch>
    requires c in rd.shaderMap2
  {
    PipelineDispatches(rd.shaderMap2[c], ready, Bindings(rd.bindMap2, c))
  }

  /** The simulation dispatches of each chunk of `order`, chunk by chunk;
      none for a chunk without a list of simulation pipelines. */
  function SimulationLists(rd: RenderData, ready: set<PipelineId>, order: seq<IVec2>): seq<seq<Dispatch>> {
    seq(|order|, i requires 0 <= i < |order| =>
      if order[i] in rd.shaderMap2 then SimulationDispatches(rd, ready, order[i]) else [])
  }

  /** The second loop of `apply_ops`, over the simulation bind map in
      `order`. The `unwrap` of the chunk's simulation pipelines panics when
      it has none. */
  function SimulationLayer(rd: RenderData, ready: set<PipelineId>, order: seq<IVec2>): (r: Outcome<seq<Dispatch>>)
    decreases |order|
    ensures r.Done? <==> forall i :: 0 <= i < |order| ==> order[i] in rd.shaderMap2
    ensures r.Done? ==> r.value == Concat(SimulationLists(rd, ready, order))
  {
    if order == [] then Done([]) else
      var c := order[0];
      var rest := SimulationLayer(rd, ready, order[1..]);
      if c !in rd.shaderMap2 then Panicked("shader_map_2.get(chunk_pos).unwrap()")
      else if rest.Panicked? then
        var i :| 0 <= i < |order[1..]| && order[1..][i] !in rd.shaderMap2;
        assert order[i + 1] !in rd.shaderMap2;
        rest
      else
        SimulationListsCons(rd, ready, order);
        Done(SimulationDispatches(rd, ready, c) + rest.value)
  }

  /** The first chunk's list followed by the lists of the others. */
  lemma SimulationListsCons(rd: RenderData, ready: set<PipelineId>, order: seq<IVec2>)
    requires order != [] && order[0] in rd.shaderMap2
    ensures SimulationLists(rd, ready, order) ==
            [SimulationDispatches(rd, ready, order[0])] + SimulationLists(rd, ready, order[1..])
  {
    var head := [SimulationDispatches(rd, ready, order[0])];
    var tail := SimulationLists(rd, ready, order[1..]);
    forall i | 0 <= i < |order|
      ensures SimulationLists(rd, ready, order)[i] == (head + tail)[i]
    {
      if i > 0 {
        assert order[1..][i - 1] == order[i];
      }
    }
  }

  /** A dispatch of the second loop is a simulation dispatch of a visited
      chunk, and every simulation dispatch of a visited chunk is issued. */
  lemma SimulationLayerMembers(rd: RenderData, ready: set<PipelineId>, order: seq<IVec2>, x: Dispatch)
    requires SimulationLayer(rd, ready, order).Done?
    ensures x in SimulationLayer(rd, ready, order).value <==>
              exists i :: 0 <= i < |order| && order[i] in rd.shaderMap2 && x in SimulationDispatches(rd, ready, order[i])
  {
    var lists := SimulationLists(rd, ready, order);
    ConcatMember(lists, x);
    if exists i :: 0 <= i < |order| && order[i] in rd.shaderMap2 && x in SimulationDispatches(rd, ready, order[i]) {
      var i :| 0 <= i < |order| && order[i] in rd.shaderMap2 && x in SimulationDispatches(rd, ready, order[i]);
      assert x in lists[i];
    }
  }

  /** `apply_ops`: both layers in turn, `order1`/`order2` being the iteration
      orders of the two bind maps, then both bind maps cleared. `ready` is the
      set of pipelines whose compile state is `Ok`. */
  function ApplyOps(rd: RenderData, ready: set<PipelineId>, order1: seq<IVec2>, order2: seq<IVec2>):
    (r: Outcome<(RenderData, seq<Dispatch>)>)
    ensures r.Done? <==>
              (forall i :: 0 <= i < |order1| ==> order1[i] in rd.shaderMap) &&
              (forall i :: 0 <= i < |order2| ==> order2[i] in rd.shaderMap2)
    ensures r.Done? ==> r.value.1 == Concat(StampLists(rd, ready, order1)) + Concat(SimulationLists(rd, ready, order2))
  {
    match StampLayer(rd, ready, order1)
    case Panicked(site) => Panicked(site)
    case Done(d1) =>
      match SimulationLayer(rd, ready, order2)
      case Panicked(site) => Panicked(site)
      case Done(d2) => Done((rd.(bindMap := map[], bindMap2 := map[]), d1 + d2))
  }

  /** `apply_ops` succeeds exactly on consistent render data. It then empties
      both bind maps, keeps the pipeline assignments, and issues the
      dispatch lists of the chunks in visit order: one dispatch per entry of
      a chunk's bind map and compiled pipeline of that chunk, each with
      workgroup counts `(size.x / 8, size.y / 8, 1)`. */
  lemma ApplyOpsEffect(rd: RenderData, ready: set<PipelineId>, order1: seq<IVec2>, order2: seq<IVec2>)
    requires Enumerates(order1, rd.bindMap.Keys) && Enumerates(order2, rd.bindMap2.Keys)
    ensures ApplyOps(rd, ready, order1, order2).Done? <==> Consistent(rd)
    ensures ApplyOps(rd, ready, order1, order2).Done? ==>
              var (rd', ds) := ApplyOps(rd, ready, order1, order2).value;
              && rd' == RenderData(map[], rd.shaderMap, map[], rd.shaderMap2)
              && ds == Concat(StampLists(rd, ready, order1)) + Concat(SimulationLists(rd, ready, order2))
              && (forall x :: x in ds ==> x.pipeline in ready && x.workgroups == (x.binding.size.x / 8, x.binding.size.y / 8, 1))
              && (forall x :: x in ds <==>
                    (exists c :: c in rd.bindMap && x in StampDispatches(rd, ready, c)) ||
                    (exists c :: c in rd.bindMap2 && x in SimulationDispatches(rd, ready, c)))
  {
    ApplyOpsOutcome(rd, ready, order1, order2);
    if Consistent(rd) {
      ApplyOpsMembers(rd, ready, order1, order2);
    }
  }

  /** `apply_ops` panics exactly on inconsistent render data. */
  lemma ApplyOpsOutcome(rd: RenderData, ready: set<PipelineId>, order1: seq<IVec2>, order2: seq<IVec2>)
    requires Enumerates(order1, rd.bindMap.Keys) && Enumerates(order2, rd.bindMap2.Keys)
    ensures ApplyOps(rd, ready, order1, order2).Done? <==> Consistent(rd)
  {
    if !Consistent(rd) {
      if exists c :: c in rd.bindMap && c !in rd.shaderMap {
        var c :| c in rd.bindMap && c !in rd.shaderMap;
        var i :| 0 <= i < |order1| && order1[i] == c;
      } else {
        var c :| c in rd.bindMap2 && c !in rd.shaderMap2;
        var i :| 0 <= i < |order2| && order2[i] == c;
      }
    }
  }

  /** On consistent render data both loops finish, and their dispatches are
      exactly the dispatches of the chunks with entries, each by a compiled
      pipeline and sized from its entry. */
  lemma ApplyOpsMembers(rd: RenderData, ready: set<PipelineId>, order1: seq<IVec2>, order2: seq<IVec2>)
    requires Enumerates(order1, rd.bindMap.Keys) && Enumerates(order2, rd.bindMap2.Keys)
    requires Consistent(rd)
    ensures StampLayer(rd, ready, order1).Done? && SimulationLayer(rd, ready, order2).Done?
    ensures var ds := StampLayer(rd, ready, order1).value + SimulationLayer(rd, ready, order2).value;
            forall x :: x in ds ==> x.pipeline in ready && x.workgroups == (x.binding.size.x / 8, x.binding.size.y / 8, 1)
    ensures var ds := StampLayer(rd, ready, order1).value + SimulationLayer(rd, ready, order2).value;
            forall x :: x in ds <==>
              (exists c :: c in rd.bindMap && x in StampDispatches(rd, ready, c)) ||
              (exists c :: c in rd.bindMap2 && x in SimulationDispatches(rd, ready, c))
  {
    var l1 := StampLayer(rd, ready, order1).value;
    var l2 := SimulationLayer(rd, ready, order2).value;
    forall x
      ensures x in l1 ==> x.pipeline in ready && x.workgroups == (x.binding.size.x / 8, x.binding.size.y / 8, 1)
      ensures x in l1 <==> exists c :: c in rd.bindMap && x in StampDispatches(rd, ready, c)
    {
      StampDispatchMember(rd, ready, order1, x);
    }
    forall x
      ensures x in l2 ==> x.pipeline in ready && x.workgroups == (x.binding.size.x / 8, x.binding.size.y / 8, 1)
      ensures x in l2 <==> exists c :: c in rd.bindMap2 && x in SimulationDispatches(rd, ready, c)
    {
      SimulationDispatchMember(rd, ready, order2, x);
    }
  }

  /** On consistent data the first loop issues exactly the stamp dispatches
      of the stamped chunks, each by a compiled pipeline and sized from its
      entry. */
  lemma StampDispatchMember(rd: RenderData, ready: set<PipelineId>, order: seq<IVec2>, x: Dispatch)
    requires Enumerates(order, rd.bindMap.Keys) && Consistent(rd)
    ensures StampLayer(rd, ready, order).Done?
    ensures x in StampLayer(rd, ready, order).value ==>
              x.pipeline in ready && x.workgroups == (x.binding.size.x / 8, x.binding.size.y / 8, 1)
    ensures x in StampLayer(rd, ready, order).value <==> exists c :: c in rd.bindMap && x in StampDispatches(rd, ready, c)
  {
    StampLayerMembers(rd, ready, order, x);
    if exists c :: c in rd.bindMap && x in StampDispatches(rd, ready, c) {
      var c :| c in rd.bindMap && x in StampDispatches(rd, ready, c);
      var i :| 0 <= i < |order| && order[i] == c;
    }
  }

  /** On consistent data the second loop issues exactly the simulation
      dispatches of the chunks with simulation entries, each by a compiled
      pipeline and sized from its entry. */
  lemma SimulationDispatchMember(rd: RenderData, ready: set<PipelineId>, order: seq<IVec2>, x: Dispatch)
    requires Enumerates(order, rd.bindMap2.Keys) && Consistent(rd)
    ensures SimulationLayer(rd, ready, order).Done?
    ensures x in SimulationLayer(rd, ready, order).value ==>
              x.pipeline in ready && x.workgroups == (x.binding.size.x / 8, x.binding.size.y / 8, 1)
    ensures x in SimulationLayer(rd, ready, order).value <==>
              exists c :: c in rd.bindMap2 && x in SimulationDispatches(rd, ready, c)
  {
    SimulationLayerMembers(rd, ready, order, x);
    if x in SimulationLayer(rd, ready, order).value {
      var i :| 0 <= i < |order| && order[i] in rd.shaderMap2 && x in SimulationDispatches(rd, ready, order[i]);
      var ids := rd.shaderMap2[order[i]];
      PipelineDispatchesMembers(ids, ready, Bindings(rd.bindMap2, order[i]), x);
    }
    if exists c :: c in rd.bindMap2 && x in SimulationDispatches(rd, ready, c) {
      var c :| c in rd.bindMap2 && x in SimulationDispatches(rd, ready, c);
      var i :| 0 <= i < |order| && order[i] == c;
    }
  }

  /** With no simulation shader, `prepare_binds` adds simulation bind groups
      for every chunk it stamps but never a simulation pipeline list, so the
      `unwrap` at the head of the second loop of `apply_ops` panics in the
      first frame that stamps a chunk which had no such list before. */
  lemma EmptySimulationsPanic(pm: PixelMap, p: Prep, order: seq<IVec2>, c: IVec2, ready: set<PipelineId>)
    requires SlotsValid(pm.store)
    requires Enumerates(order, pm.buckets.Keys)
    requires forall d :: d in pm.buckets ==> d in pm.store.positions
    requires pm.simulationShaders == []
    requires c in pm.buckets && pm.buckets[c] != [] && c !in p.rd.shaderMap2
    ensures PrepareBinds(pm, p, order).Done?
    ensures var rd := PrepareBinds(pm, p, order).value.rd;
            forall order1, order2 ::
              Enumerates(order1, rd.bindMap.Keys) && Enumerates(order2, rd.bindMap2.Keys) ==>
              ApplyOps(rd, ready, order1, order2).Panicked?
  {
    PrepareBindsPanics(pm, p, order);
    PrepareBindsEffect(pm, p, order);
    assert Served(pm, order, c);
    var rd := PrepareBinds(pm, p, order).value.rd;
    assert c in rd.bindMap2 && c !in rd.shaderMap2;
    forall order1, order2 | Enumerates(order1, rd.bindMap.Keys) && Enumerates(order2, rd.bindMap2.Keys)
      ensures ApplyOps(rd, ready, order1, order2).Panicked?
    {
      ApplyOpsEffect(rd, ready, order1, order2);
    }
  }

  /** The simulation pipelines of every chunk that has simulation bind groups
      or pipelines, with none for a chunk that has no list. */
  function CompletePipelines(rd: RenderData): (r: map<IVec2, seq<PipelineId>>)
    ensures r.Keys == rd.bindMap2.Keys + rd.shaderMap2.Keys
    ensures forall c :: c in r ==> r[c] == Pipelines(rd.shaderMap2, c)
  {
    map c | c in rd.bindMap2.Keys + rd.shaderMap2.Keys :: Pipelines(rd.shaderMap2, c)
  }

  /** `apply_ops` with the second loop reading a missing simulation pipeline
      list as an empty one: a chunk without simulation shaders has nothing to
      simulate. */
  function ApplyOpsFixed(rd: RenderData, ready: set<PipelineId>, order1: seq<IVec2>, order2: seq<IVec2>):
    Outcome<(RenderData, seq<Dispatch>)>
  {
    match ApplyOps(rd.(shaderMap2 := CompletePipelines(rd)), ready, order1, order2)
    case Panicked(site) => Panicked(site)
    case Done(r) => Done((r.0.(shaderMap2 := rd.shaderMap2), r.1))
  }

  /** Completing the pipeline lists changes a chunk's simulation dispatches
      only by giving a chunk without a list none. */
  lemma CompletedDispatches(rd: RenderData, ready: set<PipelineId>, c: IVec2)
    requires c in rd.bindMap2
    ensures SimulationDispatches(rd.(shaderMap2 := CompletePipelines(rd)), ready, c) ==
            if c in rd.shaderMap2 then SimulationDispatches(rd, ready, c) else []
  {
  }

  /** The corrected `apply_ops` panics only when a chunk with stamp bind
      groups has no stamp pipeline; otherwise it behaves as the original on
      consistent data, and skips the simulation layer of chunks without
      simulation pipelines. */
  lemma ApplyOpsFixedEffect(rd: RenderData, ready: set<PipelineId>, order1: seq<IVec2>, order2: seq<IVec2>)
    requires Enumerates(order1, rd.bindMap.Keys) && Enumerates(order2, rd.bindMap2.Keys)
    ensures ApplyOpsFixed(rd, ready, order1, order2).Done? <==> StampConsistent(rd)
    ensures Consistent(rd) ==> ApplyOpsFixed(rd, ready, order1, order2) == ApplyOps(rd, ready, order1, order2)
    ensures ApplyOpsFixed(rd, ready, order1, order2).Done? ==>
              var (rd', ds) := ApplyOpsFixed(rd, ready, order1, order2).value;
              && rd' == RenderData(map[], rd.shaderMap, map[], rd.shaderMap2)
              && ds == Concat(StampLists(rd, ready, order1)) + Concat(SimulationLists(rd, ready, order2))
              && (forall x :: x in ds <==>
                    (exists c :: c in rd.bindMap && x in StampDispatches(rd, ready, c)) ||
                    (exists c :: c in rd.bindMap2 && c in rd.shaderMap2 && x in SimulationDispatches(rd, ready, c)))
  {
    FixedOutcome(rd, ready, order1, order2);
    if StampConsistent(rd) {
      FixedMembers(rd, ready, order1, order2);
      FixedExact(rd, ready, order1, order2);
    }
  }

  /** When the corrected `apply_ops` panics, what it agrees with, and the
      render data it leaves. */
  lemma FixedOutcome(rd: RenderData, ready: set<PipelineId>, order1: seq<IVec2>, order2: seq<IVec2>)
    requires Enumerates(order1, rd.bindMap.Keys) && Enumerates(order2, rd.bindMap2.Keys)
    ensures ApplyOpsFixed(rd, ready, order1, order2).Done? <==> StampConsistent(rd)
    ensures Consistent(rd) ==> ApplyOpsFixed(rd, ready, order1, order2) == ApplyOps(rd, ready, order1, order2)
    ensures ApplyOpsFixed(rd, ready, order1, order2).Done? ==>
              ApplyOpsFixed(rd, ready, order1, order2).value.0 == RenderData(map[], rd.shaderMap, map[], rd.shaderMap2)
  {
    var full := rd.(shaderMap2 := CompletePipelines(rd));
    assert forall i :: 0 <= i < |order2| ==> order2[i] in full.shaderMap2;
    if !StampConsistent(rd) {
      var c :| c in rd.bindMap && c !in rd.shaderMap;
      var i :| 0 <= i < |order1| && order1[i] == c;
    }
    if Consistent(rd) {
      assert CompletePipelines(rd) == rd.shaderMap2;
      assert full == rd;
    }
  }

  /** The corrected `apply_ops` on render data whose stamped chunks all have
      a stamp pipeline dispatches exactly the stamp dispatches of every
      stamped chunk and the simulation dispatches of every chunk that has
      simulation pipelines. */
  lemma FixedMembers(rd: RenderData, ready: set<PipelineId>, order1: seq<IVec2>, order2: seq<IVec2>)
    requires Enumerates(order1, rd.bindMap.Keys) && Enumerates(order2, rd.bindMap2.Keys)
    requires StampConsistent(rd)
    ensures ApplyOpsFixed(rd, ready, order1, order2).Done?
    ensures forall x :: x in ApplyOpsFixed(rd, ready, order1, order2).value.1 <==>
              (exists c :: c in rd.bindMap && x in StampDispatches(rd, ready, c)) ||
              (exists c :: c in rd.bindMap2 && c in rd.shaderMap2 && x in SimulationDispatches(rd, ready, c))
  {
    var full := rd.(shaderMap2 := CompletePipelines(rd));
    ApplyOpsEffect(full, ready, order1, order2);
    assert Consistent(full);
    FixedDispatches(rd, ready, ApplyOps(full, ready, order1, order2).value.1);
  }


  /** Completing the pipeline lists leaves the per-chunk dispatch lists of
      both loops as they were: a chunk without a list had none. */
  lemma FixedLists(rd: RenderData, ready: set<PipelineId>, order1: seq<IVec2>, order2: seq<IVec2>)
    requires Enumerates(order2, rd.bindMap2.Keys)
    ensures var full := rd.(shaderMap2 := CompletePipelines(rd));
            && StampLists(full, ready, order1) == StampLists(rd, ready, order1)
            && SimulationLists(full, ready, order2) == SimulationLists(rd, ready, order2)
  {
    var full := rd.(shaderMap2 := CompletePipelines(rd));
    assert StampLists(full, ready, order1) == StampLists(rd, ready, order1);
    forall i | 0 <= i < |order2|
      ensures SimulationLists(full, ready, order2)[i] == SimulationLists(rd, ready, order2)[i]
    {
      CompletedDispatches(rd, ready, order2[i]);
    }
  }

  /** The corrected `apply_ops` issues the per-chunk dispatch lists of the
      original maps, both loops in visit order. */
  lemma FixedExact(rd: RenderData, ready: set<PipelineId>, order1: seq<IVec2>, order2: seq<IVec2>)
    requires Enumerates(order2, rd.bindMap2.Keys)
    requires ApplyOpsFixed(rd, ready, order1, order2).Done?
    ensures ApplyOpsFixed(rd, ready, order1, order2).value.1 ==
            Concat(StampLists(rd, ready, order1)) + Concat(SimulationLists(rd, ready, order2))
  {
    FixedLists(rd, ready, order1, order2);
  }

  /** The dispatches of the completed render data, read back in terms of the
      original maps. */
  lemma FixedDispatches(rd: RenderData, ready: set<PipelineId>, ds: seq<Dispatch>)
    requires StampConsistent(rd)
    requires var full := rd.(shaderMap2 := CompletePipelines(rd));
             forall x :: x in ds <==>
               (exists c :: c in full.bindMap && x in StampDispatches(full, ready, c)) ||
               (exists c :: c in full.bindMap2 && x in SimulationDispatches(full, ready, c))
    ensures forall x :: x in ds <==>
              (exists c :: c in rd.bindMap && x in StampDispatches(rd, ready, c)) ||
              (exists c :: c in rd.bindMap2 && c in rd.shaderMap2 && x in SimulationDispatches(rd, ready, c))
  {
    forall x
      ensures x in ds <==>
              (exists c :: c in rd.bindMap && x in StampDispatches(rd, ready, c)) ||
              (exists c :: c in rd.bindMap2 && c in rd.shaderMap2 && x in SimulationDispatches(rd, ready, c))
    {
      FixedStampMembers(rd, ready, x);
      FixedSimulationMembers(rd, ready, x);
    }
  }

  /** The stamp layer reads the same with completed pipeline lists. */
  lemma FixedStampMembers(rd: RenderData, ready: set<PipelineId>, x: Dispatch)
    requires StampConsistent(rd)
    ensures var full := rd.(shaderMap2 := CompletePipelines(rd));
            (exists c :: c in full.bindMap && x in StampDispatches(full, ready, c)) <==>
            (exists c :: c in rd.bindMap && x in StampDispatches(rd, ready, c))
  {
    var full := rd.(shaderMap2 := CompletePipelines(rd));
    if exists c :: c in full.bindMap && x in StampDispatches(full, ready, c) {
      var c :| c in full.bindMap && x in StampDispatches(full, ready, c);
      assert x in StampDispatches(rd, ready, c);
    }
    if exists c :: c in rd.bindMap && x in StampDispatches(rd, ready, c) {
      var c :| c in rd.bindMap && x in StampDispatches(rd, ready, c);
      assert x in StampDispatches(full, ready, c);
    }
  }

  /** With completed pipeline lists the simulation layer dispatches exactly
      what the chunks that have pipelines dispatch. */
  lemma FixedSimulationMembers(rd: RenderData, ready: set<PipelineId>, x: Dispatch)
    ensures var full := rd.(shaderMap2 := CompletePipelines(rd));
            (exists c :: c in full.bindMap2 && x in SimulationDispatches(full, ready, c)) <==>
            (exists c :: c in rd.bindMap2 && c in rd.shaderMap2 && x in SimulationDispatches(rd, ready, c))
  {
    var full := rd.(shaderMap2 := CompletePipelines(rd));
    if exists c :: c in full.bindMap2 && x in SimulationDispatches(full, ready, c) {
      var c :| c in full.bindMap2 && x in SimulationDispatches(full, ready, c);
      CompletedDispatches(rd, ready, c);
    }
    if exists c :: c in rd.bindMap2 && c in rd.shaderMap2 && x in SimulationDispatches(rd, ready, c) {
      var c :| c in rd.bindMap2 && c in rd.shaderMap2 && x in SimulationDispatches(rd, ready, c);
      CompletedDispatches(rd, ready, c);
    }
  }


  /** With the corrected `apply_ops`, a frame never panics: `prepare_binds`
      after `prepare_chunks` succeeds and keeps every stamped chunk's stamp
      pipeline, whether or not the canvas has simulation shaders. */
  lemma FrameNeverPanicsFixed(pm: PixelMap, p: Prep, order: seq<IVec2>, ready: set<PipelineId>)
    requires SlotsValid(pm.store)
    requires Enumerates(order, pm.buckets.Keys)
    requires forall c :: c in pm.buckets ==> c in pm.store.positions
    requires StampConsistent(p.rd)
    ensures PrepareBinds(pm, p, order).Done?
    ensures var rd := PrepareBinds(pm, p, order).value.rd;
            forall order1, order2 ::
              Enumerates(order1, rd.bindMap.Keys) && Enumerates(order2, rd.bindMap2.Keys) ==>
              ApplyOpsFixed(rd, ready, order1, order2).Done?
  {
    PrepareBindsPanics(pm, p, order);
    PrepareBindsEffect(pm, p, order);
    var rd := PrepareBinds(pm, p, order).value.rd;
    assert StampConsistent(rd);
    forall order1, order2 | Enumerates(order1, rd.bindMap.Keys) && Enumerates(order2, rd.bindMap2.Keys)
      ensures ApplyOpsFixed(rd, ready, order1, order2).Done?
    {
      ApplyOpsFixedEffect(rd, ready, order1, order2);
    }
  }
}

=== FILE: rust.dfy ===
/** The few pieces of Rust's standard library that the canvas code leans on:
    optional values, a panic outcome, and the iteration order of a hash map. */
module Rust {

  datatype Option<+T> = None | Some(value: T) {
    /** `Option::unwrap_or`. */
    function UnwrapOr(default: T): T {
      match this
      case Some(v) => v
      case None => default
    }
  }

  /** `Result<T, E>`: an error value handed back to the caller. */
  datatype Result<+T, +E> = Ok(value: T) | Err(error: E)

  /** A computation that either finishes with a value or panics (an `unwrap`,
      `expect`, `assert!` or out-of-range slice that fails). `site` names the
      failing call. */
  datatype Outcome<+T> = Done(value: T) | Panicked(site: string)

  /** The lists of `xss` joined end to end, in order: what a loop that
      pushes each list's items in turn builds. */
  function Concat<T>(xss: seq<seq<T>>): seq<T> {
    if xss == [] then [] else xss[0] + Concat(xss[1..])
  }

  /** An item is in the concatenation exactly when it is in one of the
      lists. */
  lemma {:induction false} ConcatMember<T>(xss: seq<seq<T>>, x: T)
    decreases |xss|
    ensures x in Concat(xss) <==> exists i :: 0 <= i < |xss| && x in xss[i]
  {
    if xss != [] {
      var rest := xss[1..];
      ConcatMember(rest, x);
      assert Concat(xss) == xss[0] + Concat(rest);
      if x in Concat(xss) && x !in xss[0] {
        var i :| 0 <= i < |rest| && x in rest[i];
        assert xss[i + 1] == rest[i];
      }
      if exists i :: 0 < i < |xss| && x in xss[i] {
        var i :| 0 < i < |xss| && x in xss[i];
        assert rest[i - 1] == xss[i];
      }
    }
  }

  lemma ConcatMembers<T>(xss: seq<seq<T>>)
    ensures forall x :: x in Concat(xss) <==> exists i :: 0 <= i < |xss| && x in xss[i]
  {
    forall x {
      ConcatMember(xss, x);
    }
  }

  /** A `HashMap` visits its keys in an unspecified order, each key once. The
      model takes that order as a parameter and asks only that it be one. */
  predicate Enumerates<K>(order: seq<K>, keys: set<K>) {
    && (forall i :: 0 <= i < |order| ==> order[i] in keys)
    && (forall k :: k in keys ==> k in order)
    && (forall i, j :: 0 <= i < j < |order| ==> order[i] != order[j])
  }

  /** The enumeration of the keys left after the first one. */
  lemma EnumeratesTail<K>(order: seq<K>, keys: set<K>)
    requires Enumerates(order, keys)
    requires |order| > 0
    ensures order[0] in keys
    ensures Enumerates(order[1..], keys - {order[0]})
  {
    var rest := order[1..];
    forall k | k in keys - {order[0]}
      ensures k in rest
    {
      var i :| 0 <= i < |order| && order[i] == k;
      assert i != 0;
      assert rest[i - 1] == k;
    }
  }
}
